=== FILE: README.md ===
# Alignment pipeline reporting tools, modelled in Dafny

This project models the reporting core of a Montreal Forced Aligner (MFA)
pipeline. It covers three Python tools. Each tool reads the files the aligner
leaves behind and turns them into counts and verdicts:

- `tools/metrics.py` counts input and output files. It parses the validation
  log for OOV (out-of-vocabulary) lines, extracted OOV words and real error
  lines. It computes alignment coverage and picks the summary verdict
  ("All", "Most" or "Some audio files were aligned", or "No TextGrid files").
- `tools/analyze_textgrids.py` walks the lines of each TextGrid file. A small
  state machine remembers the current tier (`words`, `phones` or unknown). It
  counts intervals, non-empty word intervals, non-empty phone intervals and
  empty intervals. The per-file records are summed into a summary, and the
  files are visited in sorted order.
- `tools/analyze_oov.py` sorts OOV words into pattern buckets (digits,
  hyphens, apostrophes, acronyms, special characters, short, long). It parses
  `oovs_found.txt` and `utterance_oovs.txt`, scans a log for the four OOV
  markers, and merges the word lists.

The file system is modelled as data:

- A directory is an `Option<seq<string>>` of its entry names, and `None` means
  it does not exist.
- A text file is an `Option<seq<string>>` of its lines, and `None` means it is
  missing or unreadable. The tools treat those two cases alike, with one
  exception. `metrics.py` prints the validation section for every existing
  log, even one it could not read. So the validation log is a
  `Metrics.LogFile`: `Missing`, `Unreadable` or `Readable(lines)`.
- Text is ASCII. Python's `str.isspace`, `isdigit`, `isalnum`, `lower`,
  `strip`, `split`, `split(c, 1)`, `in` and string ordering are defined in
  `Strings` and `Ordering`, and so is the regex `\w`/`\s` class. A word's
  `isupper` is `OovAnalysis.IsUpperWord`.

Modules, one per file: `Optional`, `Collections` (filtering, counting,
dedup, map sums), `Strings`, `Ordering` (lexicographic order and insertion
sort), `Files` (the `*suffix` glob), `Metrics`, `TextGrids`, `OovAnalysis`.

Two things the code does that a reader might not expect are proved as
lemmas:

- The "unique OOV words" count can exceed the "OOV occurrences" count. A line
  `word not found in dictionary` adds `word` to the set but contains no
  `oov`. See `Metrics.UniqueOovWordsMayExceedOccurrences`.
- Coverage is not clamped to 100. It goes above 100 when there are more
  TextGrids than WAV files. See `Metrics.CoverageRange`.

## Model

| member | source | states |
|---|---|---|
| Strings.Lower | tools/metrics.py:64 | `str.lower` on ASCII keeps the length and lowers each character on its own, and no capital letter is left |
| Strings.ContainsIffOccurs | tools/metrics.py:64 | the substring test `sub in s` holds exactly when `sub` occurs at some index of `s` |
| Strings.ContainsLower | tools/metrics.py:64 | a phrase found in a text is still found, lowered, in the lowered text |
| Strings.Strip | tools/analyze_oov.py:75 | `strip()` removes a leading and a trailing whitespace run: the result is a slice of the input, and it is empty or has non-space ends |
| Strings.TrimBy | tools/analyze_textgrids.py:70 | `strip(chars)` removes the leading and trailing runs of the given characters. The result is a slice with only those characters around it, and neither of its ends is one of them |
| Strings.TrimmedAtUnique | tools/analyze_textgrids.py:70 | a text has exactly one such trimmed slice, so the contracts of `strip()` and `strip(chars)` fix their results |
| Strings.StripIdempotent | tools/analyze_oov.py:93 | stripping twice is stripping once, so the inner `word.strip()` on an already stripped word changes nothing |
| Strings.StripKeepsPhrase | tools/analyze_textgrids.py:56-59 | a phrase with non-space ends occurs in the stripped line exactly when it occurs in the raw line |
| Strings.Words | tools/metrics.py:70 | `split()` yields only non-empty tokens free of whitespace |
| Strings.WordsAreMaximalRuns | tools/metrics.py:70 | `split()` returns the maximal non-space runs left to right. Each token occurs with whitespace or an end of the text on both sides, and each one ends, with a gap, before the next one starts |
| Strings.WordsOfJoin | tools/analyze_oov.py:91 | splitting tokens joined by single spaces gives back the tokens, so `split` inverts the join |
| Strings.WordsKeepNonSpace | tools/analyze_oov.py:91 | the tokens of `split()`, put back together, are exactly the non-space characters of the input, in order |
| Strings.AfterFirst | tools/analyze_oov.py:88-89 | `line.split(':', 1)[1]`: nothing when there is no `:`; otherwise the text after the first `:`, with no `:` before it |
| Strings.AfterFirstSplit | tools/analyze_oov.py:89 | splitting `name:rest` at the first `:`, when the name has no `:`, gives `rest` |
| Ordering.LexLeTotal | tools/analyze_textgrids.py:113 | Python string ordering compares any two names |
| Ordering.LexLeTransitive | tools/analyze_textgrids.py:113 | Python string ordering is transitive |
| Ordering.LexLeAntisymmetric | tools/analyze_textgrids.py:113 | two names ordered both ways are equal |
| Ordering.Sort | tools/analyze_textgrids.py:113 | `sorted` returns an ordered permutation of its input |
| Ordering.SortedUnique | tools/analyze_textgrids.py:113 | two ordered permutations of the same names are equal, so the sorted order is fully determined |
| Collections.Dedup | tools/analyze_oov.py:273 | the duplicate-free list has no repeats, the same elements as its input, and is no longer than it |
| Files.Glob | tools/metrics.py:33-34 | `glob('*suffix')` keeps, in listing order, each entry that ends with the suffix and is not hidden, and drops every other entry |
| Files.CountFilesByExtension | tools/metrics.py:19-34 | 0 for a missing directory; otherwise the number of entries the glob matches, at most the listing size |
| Metrics.MentionsOovIffOovLine | tools/metrics.py:64 | the test `'OOV' in line or 'oov' in line.lower()` is the same as `'oov' in line.lower()` |
| Metrics.NotPredecessors | tools/metrics.py:70-73 | a token is extracted exactly when it comes right before a token whose lower case is `not` |
| Metrics.ParseLines | tools/metrics.py:62-89 | the OOV count is the number of lines mentioning `oov` in any case. The error count is the number of lines that say `error`, carry an error indicator and no no-error phrase. No utterances are counted. The OOV words are exactly the words taken from lines that contain the dictionary marker |
| Metrics.ParseValidationLog | tools/metrics.py:47-94 | a missing log and a log that cannot be read both yield all-zero statistics. A readable log yields the OOV and error line counts and the words its lines contribute |
| Metrics.OovWordOrigin | tools/metrics.py:68-73 | every OOV word comes from a line containing `not found in dictionary`, where it comes right before a `not` token |
| Metrics.ErrorLineRule | tools/metrics.py:76-89 | a line adds to the error count exactly when it is an error line; a no-error phrase always prevents counting |
| Metrics.ExampleLineOovWords | tools/metrics.py:68-73 | the line `word not found in dictionary` contributes the OOV word `word` and is not an OOV line |
| Metrics.UniqueOovWordsMayExceedOccurrences | tools/metrics.py:62-73 | on a one-line log the parser reports zero OOV occurrences but one unique OOV word |
| Metrics.GetTextGridStats | tools/metrics.py:107-121 | the count equals the length of the file list. A missing directory gives an empty list. The list keeps exactly the `.TextGrid` entries of the listing, in listing order |
| Metrics.Coverage | tools/metrics.py:124-137 | 0 when there are no WAV files; otherwise coverage × wavCount = 100 × textgridCount |
| Metrics.CoverageAtLeast | tools/metrics.py:209-211 | with WAV files present, coverage ≥ p exactly when 100·textgrids ≥ p·wavs |
| Metrics.CoverageRange | tools/metrics.py:133-137 | coverage lies in [0, 100] when textgrids ≤ wavs. It is exactly 100 iff the counts agree, and above 100 when textgrids exceed wavs |
| Metrics.SummaryVerdict | tools/metrics.py:205-216 | "no TextGrids" iff none were made. "All aligned" iff 0 < wavs ≤ textgrids. "Most aligned" iff 90% ≤ coverage < 100%. "Some not aligned" iff there are TextGrids and either no WAV files or coverage below 90% |
| Metrics.MetricsReportOf | tools/metrics.py:157-216 | the report warns exactly when the WAV and LAB counts differ. It has validation results exactly when the log exists, with zero counts for an unreadable log. A missing corpus gives zero counts. The verdict is the summary verdict of the counts, so all four outcomes carry over |
| TextGrids.StripDoesNotChangeTests | tools/analyze_textgrids.py:56-68 | stripping the line first does not change whether it contains `name =` or `text =` |
| TextGrids.TierOfName | tools/analyze_textgrids.py:59-65 | a name line always sets some tier. The tier is `words` exactly when a quoted `words` appears. It is `phones` exactly when a quoted `phones` appears and no quoted `words` does |
| TextGrids.TextValue | tools/analyze_textgrids.py:70 | absent only without `=`. Otherwise the value is what `strip()`, `strip('"')` and `strip()`, in that order, leave of the text after the first `=`. It is a slice of that text with only whitespace and `"` around it, and its ends are not whitespace |
| TextGrids.StripsToUnique | tools/analyze_textgrids.py:70 | the three strips in that order have exactly one outcome, so `TextValue`'s contract fixes the value, quotes removed |
| TextGrids.QuotedTextValue | tools/analyze_textgrids.py:70 | `text = "w"` has the value `w` for any `w` that neither starts nor ends with whitespace or `"` |
| TextGrids.EmptyQuotedText | tools/analyze_textgrids.py:70-75 | `text = ""` has the empty value, which counts as an empty interval |
| TextGrids.QuotedWordText | tools/analyze_textgrids.py:70-75 | `text = "a"` has the value `a`, which counts as a word or phone |
| TextGrids.Step | tools/analyze_textgrids.py:55-81 | a name line updates the tier before the text test. A text line counts one interval. Its empty value counts as empty, and its non-empty value counts as a word or phone by the current tier |
| TextGrids.Run | tools/analyze_textgrids.py:53-81 | the interval count is the number of `text =` lines, and empty + words + phones never exceeds intervals |
| TextGrids.ClassifiedTextBalances | tools/analyze_textgrids.py:68-81 | when every text line lies in a words or phones tier, empty + words + phones = intervals |
| TextGrids.UnclassifiedTextOnlyCountsInterval | tools/analyze_textgrids.py:72-81 | a non-empty text line outside a words or phones tier adds an interval and nothing else |
| TextGrids.ReadTextGrid | tools/analyze_textgrids.py:28-89 | a file that cannot be read is flagged with zero counts. A readable file is never flagged and has as many intervals as `text =` lines. The counts stay balanced |
| TextGrids.Totals | tools/analyze_textgrids.py:137 | the file total is the number of records |
| TextGrids.TotalsCountErrors | tools/analyze_textgrids.py:143 | the error total is the number of flagged records, never more than the file total |
| TextGrids.TotalsBalanced | tools/analyze_textgrids.py:139-142 | summed empty + words + phones never exceeds summed intervals |
| TextGrids.TotalsConcat | tools/analyze_textgrids.py:137-143 | the totals of two batches together are the sums of their totals. With `TotalsSingle` (one file's totals are its own fields), each total is the sum of the per-file fields |
| TextGrids.TotalsSingle | tools/analyze_textgrids.py:137-143 | the totals of one file are that file's own counts and its error flag |
| TextGrids.ReadEach | tools/analyze_textgrids.py:112-117 | one record per name, in the given order, each the parse of that file |
| TextGrids.AnalyzeDirectory | tools/analyze_textgrids.py:102-117 | one record per `.TextGrid` entry, in sorted name order. Each name appears exactly as often as in the listing. Each record is that file's parse |
| OovAnalysis.AnalyzeOovPatterns | tools/analyze_oov.py:112-151 | each bucket is the input filtered by its test: digit, hyphen, apostrophe, acronym, special character, length ≤ 2, length ≥ 15 |
| OovAnalysis.BucketsSelect | tools/analyze_oov.py:122-149 | each bucket keeps input order and duplicates. It holds a word as often as the input does when the word passes the bucket's test, and never otherwise |
| OovAnalysis.BucketFacts | tools/analyze_oov.py:136-149 | no word is both short and long, and every acronym has at least two characters. A word made only of letters, digits, `-` and `'` is never special |
| OovAnalysis.HyphenAndApostropheBuckets | tools/analyze_oov.py:127-133 | `hyphenated` holds the words with `-`, and `contractions` the words with `'`, each with its input multiplicity |
| OovAnalysis.WordLines | tools/analyze_oov.py:74-77 | one entry per non-blank line. Each entry is non-empty and already stripped |
| OovAnalysis.WordLinesAreStrippedWordLines | tools/analyze_oov.py:74-77 | the entries are the non-blank lines, in file order, each stripped |
| OovAnalysis.ReadWordList | tools/analyze_oov.py:69-79 | a missing file gives no words; otherwise the entries of `WordLines` |
| OovAnalysis.UtteranceTokens | tools/analyze_oov.py:88-91 | a line without `:` gives no words; the others give whitespace-free tokens |
| OovAnalysis.UtteranceNameSkipped | tools/analyze_oov.py:87-91 | for `name: words`, only the part after the first `:` is split, so the utterance name is never counted |
| OovAnalysis.Bump | tools/analyze_oov.py:95 | one word's count goes up by one and no other count changes. Counts stay positive, and the grand total grows by one |
| OovAnalysis.AddToken | tools/analyze_oov.py:93-95 | a token survives the `strip` and emptiness test and is counted once |
| OovAnalysis.AddTokens | tools/analyze_oov.py:92-95 | each word's count grows by the number of its occurrences, and counts stay positive. The grand total grows by the number of words |
| OovAnalysis.CountFrequencies | tools/analyze_oov.py:84-95 | each word's frequency equals its number of occurrences across all utterance lines. Frequencies are positive and sum to the number of words |
| OovAnalysis.ReadFrequencies | tools/analyze_oov.py:81-99 | a missing file gives an empty table. Otherwise the frequencies count occurrences exactly, and there are no more distinct words than occurrences |
| OovAnalysis.CaptureFrom | tools/analyze_oov.py:40-43 | `\s*(\w+)` matches exactly when a word character follows the whitespace. It captures a maximal word run after only whitespace |
| OovAnalysis.MatchAt | tools/analyze_oov.py:40-47 | the pattern matches at a position exactly when the marker, in any case, and `:` stand there and a word character follows the whitespace after them. The word is then a maximal `\w` run with only whitespace between the `:` and it |
| OovAnalysis.ScanFrom | tools/analyze_oov.py:47 | every word `findall` returns for one marker is a word run captured by a match at some position |
| OovAnalysis.ScanEmptyIff | tools/analyze_oov.py:47 | `findall` from a position returns nothing exactly when the pattern matches at no later position |
| OovAnalysis.ScanFirstMatch | tools/analyze_oov.py:47 | `findall` returns the word of the leftmost match first, then resumes where that match ends. With `ScanEmptyIff`, this fixes the whole list |
| OovAnalysis.ExtractOovWordsFromLog | tools/analyze_oov.py:28-53 | a missing log gives no words. Every extracted word is a word run that one of the four markers captures |
| OovAnalysis.ExtractEmptyIff | tools/analyze_oov.py:39-48 | a log yields no words exactly when no marker's pattern matches anywhere in it |
| OovAnalysis.ExtractFindsFirstCapture | tools/analyze_oov.py:39-48 | for each marker, the word of its leftmost match is among the extracted words |
| OovAnalysis.LogWordsGroupedByMarker | tools/analyze_oov.py:39-48 | the extracted words are the captures of `OOV`, then `out of vocabulary`, then `not found in dictionary`, then `unknown word` |
| OovAnalysis.MergeOovWords | tools/analyze_oov.py:267-273 | with log words, the merged list has no duplicates and exactly the words of either list; without them, the file's list is returned unchanged |

## Left out

- Printing, report layout and the command-line entry points (`main` of each
  tool) are not modelled. Only the values they print and decide on are.
- File-system access is not modelled. Directories and files are given as
  data: existence becomes `Option`, and reading becomes a sequence of lines
  or one string. Lines are given already split, without line terminators.
- Decoding is not modelled: neither `errors='ignore'` nor UTF-8.
- Text is ASCII. Unicode rules are left out:
  - Python's Unicode whitespace, digits, letters and `\w`;
  - case mapping outside ASCII;
  - case-insensitive matches such as the Kelvin sign matching `k`.
- `read_textgrid`'s duration is left out: the `xmax` search, the `float`
  parse, and `total_duration` and its sums and averages. It is floating-point
  data that no count depends on.
- Exceptions other than a file that cannot be opened or read are left out.
  The `IndexError` handler around the text split can never fire, because
  `text =` contains `=`.
- `Metrics.Coverage`: coverage is an exact rational, not an IEEE double. For
  very large counts, double rounding at the 90% and 100% thresholds can
  differ.
- `OovAnalysis.MergeOovWords`: the source's order comes from a Python set and
  is unspecified. The contract states only "no duplicates, same words", and
  the model keeps first occurrences.
- `OovAnalysis.AddTokens`: requires its words to be tokens. It is only applied
  to the output of `split`, and on tokens the source's own `strip` and
  emptiness test never drop a word.
- `print_summary` with an empty list only prints a message. `Totals([])` is
  the all-zero summary.
- `glob`'s paths are reduced to base names. Every path shares one
  directory prefix, so sorting full paths and sorting names give the same
  order.
- `glob`'s listing order is taken as given. The source does not sort it in
  `metrics.py`.
- The `total_utterances` field of the validation statistics is never updated
  by the source. It is kept as a constant 0.
- The shell pipeline and the reports that print recommendations are not part
  of this model.

=== FILE: collections.dfy ===
/** Sequence facts shared by the three tools: counting the elements that pass
    a test, keeping them in order, dropping duplicates and summing a map. */
module Collections {

  /** The positions of `s` whose element satisfies `p`. */
  ghost function Matching<T>(s: seq<T>, p: T -> bool): set<int>
  {
    set i | 0 <= i < |s| && p(s[i])
  }

  /** Appending one element adds its position exactly when it passes the test. */
  lemma MatchingSnoc<T>(s: seq<T>, x: T, p: T -> bool)
    ensures |Matching(s + [x], p)| == |Matching(s, p)| + (if p(x) then 1 else 0)
  {
    var t := s + [x];
    var extra: set<int> := if p(x) then {|s|} else {};
    forall i | 0 <= i < |s|
      ensures i in Matching(t, p) <==> i in Matching(s, p)
    {
      assert t[i] == s[i];
    }
    assert Matching(t, p) == Matching(s, p) + extra;
    assert Matching(s, p) !! extra;
  }

  /** Whatever is in a part of a concatenation is in the whole. */
  lemma InConcat<T>(a: seq<T>, b: seq<T>, x: seq<T>)
    requires x == a || (forall w :: w in x ==> w in b)
    ensures forall w :: w in x ==> w in a + b
  {
  }

  /** `a` is obtained from `b` by deleting elements, keeping the order. */
  ghost predicate IsSubseq<T>(a: seq<T>, b: seq<T>)
    decreases |b|
  {
    if a == [] then true
    else if b == [] then false
    else (a[|a| - 1] == b[|b| - 1] && IsSubseq(a[..|a| - 1], b[..|b| - 1]))
         || IsSubseq(a, b[..|b| - 1])
  }

  /** `r` is the subsequence of `s` made of the elements passing `p`, every one
      of them with its multiplicity in `s`. */
  ghost predicate Selects<T(!new)>(r: seq<T>, s: seq<T>, p: T -> bool)
  {
    && IsSubseq(r, s)
    && forall x :: multiset(r)[x] == if p(x) then multiset(s)[x] else 0
  }

  /** The elements of `s` satisfying `p`, in order and with duplicates. */
  function Filter<T>(s: seq<T>, p: T -> bool): seq<T>
    decreases |s|
  {
    if s == [] then []
    else if p(s[|s| - 1]) then Filter(s[..|s| - 1], p) + [s[|s| - 1]]
    else Filter(s[..|s| - 1], p)
  }

  /** `Filter` keeps exactly the passing elements, in order, each as often as
      it occurs, so its length is the number of passing positions. */
  lemma {:induction false} FilterSelects<T(!new)>(s: seq<T>, p: T -> bool)
    ensures Selects(Filter(s, p), s, p)
    ensures |Filter(s, p)| == |Matching(s, p)| <= |s|
    decreases |s|
  {
    if s != [] {
      var init := s[..|s| - 1];
      var x := s[|s| - 1];
      assert s == init + [x];
      MatchingSnoc(init, x, p);
      FilterSelects(init, p);
      var r := Filter(s, p);
      var r' := Filter(init, p);
      if p(x) {
        assert r == r' + [x];
        assert r[..|r| - 1] == r';
      }
    }
  }

  /** Filtering distributes over concatenation. */
  lemma {:induction false} FilterConcat<T>(a: seq<T>, b: seq<T>, p: T -> bool)
    ensures Filter(a + b, p) == Filter(a, p) + Filter(b, p)
    decreases |b|
  {
    if b == [] {
      assert a + b == a;
    } else {
      var b' := b[..|b| - 1];
      var x := b[|b| - 1];
      assert b == b' + [x];
      var ab := a + b;
      assert ab[..|ab| - 1] == a + b' && ab[|ab| - 1] == x;
      assert b[..|b| - 1] == b';
      FilterConcat(a, b', p);
      assert Filter(ab, p) == Filter(a + b', p) + (if p(x) then [x] else []);
      assert Filter(b, p) == Filter(b', p) + (if p(x) then [x] else []);
    }
  }

  /** Applies `f` to every element, keeping positions. */
  function Apply<T, U>(f: T -> U, s: seq<T>): (r: seq<U>)
    ensures |r| == |s|
    ensures forall i :: 0 <= i < |s| ==> r[i] == f(s[i])
    decreases |s|
  {
    if s == [] then [] else Apply(f, s[..|s| - 1]) + [f(s[|s| - 1])]
  }

  /** Everything `Filter` keeps passes the test. */
  lemma {:induction false} FilterPasses<T>(s: seq<T>, p: T -> bool, x: T)
    requires x in Filter(s, p)
    ensures p(x)
    decreases |s|
  {
    var init := s[..|s| - 1];
    if x in Filter(init, p) {
      FilterPasses(init, p, x);
    }
  }

  /** A sequence whose every element passes the test is its own filter. */
  lemma {:induction false} FilterKeepsAll<T>(s: seq<T>, p: T -> bool)
    requires forall i :: 0 <= i < |s| ==> p(s[i])
    ensures Filter(s, p) == s
    decreases |s|
  {
    if s != [] {
      var init := s[..|s| - 1];
      assert s == init + [s[|s| - 1]];
      FilterKeepsAll(init, p);
    }
  }

  /** No element occurs twice. */
  predicate NoDup<T(==)>(s: seq<T>)
  {
    forall i, j :: 0 <= i < j < |s| ==> s[i] != s[j]
  }

  /** The first occurrence of every element of `s`, in order. */
  function Dedup<T(==,!new)>(s: seq<T>): (r: seq<T>)
    ensures NoDup(r)
    ensures forall x :: x in r <==> x in s
    ensures |r| <= |s|
    decreases |s|
  {
    if s == [] then []
    else
      var init := s[..|s| - 1];
      var x := s[|s| - 1];
      assert s == init + [x];
      var d := Dedup(init);
      if x in d then d else d + [x]
  }

  /** The sum of the values of a map, taken in an arbitrary key order. */
  ghost function SumValues<K>(m: map<K, nat>): nat
    decreases |m|
  {
    if m.Keys == {} then 0
    else
      var k :| k in m.Keys;
      assert m.Keys - {k} < m.Keys;
      m[k] + SumValues(m - {k})
  }

  /** The sum does not depend on which key is taken first. */
  lemma {:induction false} SumValuesRemove<K>(m: map<K, nat>, k: K)
    requires k in m
    ensures SumValues(m) == m[k] + SumValues(m - {k})
    decreases |m|
  {
    var k' :| k' in m.Keys && SumValues(m) == m[k'] + SumValues(m - {k'});
    if k' != k {
      assert (m - {k'}).Keys < m.Keys;
      assert (m - {k}).Keys < m.Keys;
      SumValuesRemove(m - {k'}, k);
      SumValuesRemove(m - {k}, k');
      assert m - {k'} - {k} == m - {k} - {k'};
    }
  }

  /** Setting one key changes the sum by the difference of its old and new value. */
  lemma SumValuesUpdate<K>(m: map<K, nat>, k: K, v: nat)
    ensures SumValues(m[k := v]) == SumValues(m - {k}) + v
    ensures k in m ==> SumValues(m) == SumValues(m - {k}) + m[k]
    ensures k !in m ==> SumValues(m) == SumValues(m - {k})
  {
    SumValuesRemove(m[k := v], k);
    assert m[k := v] - {k} == m - {k};
    if k in m {
      SumValuesRemove(m, k);
    } else {
      assert m - {k} == m;
    }
  }

  /** When every value is at least one, there are no more keys than the sum. */
  lemma {:induction false} KeysAtMostSum<K>(m: map<K, nat>)
    requires forall k :: k in m ==> m[k] >= 1
    ensures |m| <= SumValues(m)
    decreases |m|
  {
    if m.Keys != {} {
      var k :| k in m.Keys;
      SumValuesRemove(m, k);
      assert (m - {k}).Keys < m.Keys;
      KeysAtMostSum(m - {k});
      assert |m - {k}| == |m| - 1 by {
        assert (m - {k}).Keys == m.Keys - {k};
      }
    }
  }
}

=== FILE: files.dfy ===
/** Directory listings as the tools see them through `glob`: a listing is the
    sequence of entry names of one directory, absent when the directory is. */
module Files {
  import opened Optional
  import opened Strings
  import opened Collections

  const TextGridSuffix := ".TextGrid"

  /** Whether `glob` with the pattern `*<suffix>` returns the entry `name`:
      the name ends with the suffix and, the pattern not starting with a dot,
      the entry is not hidden. Matching is case-sensitive. */
  predicate GlobStarSuffix(name: string, suffix: string)
  {
    EndsWith(name, suffix) && !(|name| > 0 && name[0] == '.')
  }

  /** The test `GlobStarSuffix(_, suffix)` as a value, so that every use of it
      for one suffix denotes the same function. */
  function SuffixTest(suffix: string): string -> bool
  {
    name => GlobStarSuffix(name, suffix)
  }

  predicate IsTextGridName(name: string)
  {
    GlobStarSuffix(name, TextGridSuffix)
  }

  /** The names of a directory that match `*<suffix>`, in listing order. */
  function Glob(listing: seq<string>, suffix: string): (r: seq<string>)
    ensures Selects(r, listing, SuffixTest(suffix))
    ensures |r| == |Matching(listing, SuffixTest(suffix))| <= |listing|
  {
    FilterSelects(listing, SuffixTest(suffix));
    Filter(listing, SuffixTest(suffix))
  }

  /** `count_files_by_extension`: how many entries match `*<extension>`, zero
      when the directory does not exist. */
  function CountFilesByExtension(directory: Option<seq<string>>, extension: string): (n: nat)
    ensures directory.None? ==> n == 0
    ensures directory.Some? ==> n == |Matching(directory.value, SuffixTest(extension))|
    ensures directory.Some? ==> n <= |directory.value|
  {
    match directory
    case None => 0
    case Some(listing) => |Glob(listing, extension)|
  }
}

=== FILE: metrics.dfy ===
/** The metrics collector of tools/metrics.py: the validation-log classifier,
    the TextGrid listing, alignment coverage and the summary verdict. */
module Metrics {
  import opened Optional
  import opened Strings
  import opened Collections
  import opened Files

  /** What `parse_validation_log` accumulates. `totalUtterances` is part of the
      record but no line ever changes it. */
  datatype ValidationStats = ValidationStats(
    oovCount: nat,
    oovWords: set<string>,
    totalUtterances: nat,
    errorCount: nat)

  const EmptyValidationStats := ValidationStats(0, {}, 0, 0)

  /** A line carrying this phrase, in any case, names out-of-vocabulary words. */
  const NotFoundMarker := "not found in dictionary"

  /** Phrases of a lower-cased line that say there was no error. */
  const NoErrorPhrases: seq<string> :=
    ["no error", "there were no", "0 error", "without error", "error read", "read error", "no issues"]

  /** Phrases of a lower-cased line that say an error did happen. */
  const ErrorIndicators: seq<string> :=
    [" error:", "error occurred", "failed", "exception", "traceback", "error -"]

  predicate ContainsAny(s: string, phrases: seq<string>)
  {
    exists i :: 0 <= i < |phrases| && Contains(s, phrases[i])
  }

  /** The test the source applies: `OOV` in the line, or `oov` in its lower case. */
  predicate MentionsOov(line: string)
  {
    Contains(line, "OOV") || Contains(Lower(line), "oov")
  }

  /** A line counted as an OOV occurrence: `oov` in any case. */
  predicate IsOovLine(line: string)
  {
    Contains(Lower(line), "oov")
  }

  /** The first disjunct of the source's test adds nothing to the second. */
  lemma MentionsOovIffOovLine(line: string)
    ensures MentionsOov(line) <==> IsOovLine(line)
  {
    if Contains(line, "OOV") {
      ContainsLower(line, "OOV");
      assert Lower("OOV") == "oov";
    }
  }

  /** A line counted as an error: it mentions `error`, carries none of the
      no-error phrases and at least one error indicator, all in lower case. */
  predicate IsErrorLine(line: string)
  {
    var lower := Lower(line);
    Contains(lower, "error") && !ContainsAny(lower, NoErrorPhrases) && ContainsAny(lower, ErrorIndicators)
  }

  /** Every token that immediately precedes a token equal to `not` in any case. */
  function NotPredecessors(parts: seq<string>): (r: set<string>)
    ensures forall w :: w in r <==>
      exists i :: 1 <= i < |parts| && Lower(parts[i]) == "not" && parts[i - 1] == w
    decreases |parts|
  {
    if |parts| < 2 then {}
    else
      var init := parts[..|parts| - 1];
      var found := NotPredecessors(init);
      assert forall i :: 0 <= i < |init| ==> init[i] == parts[i];
      if Lower(parts[|parts| - 1]) == "not" then found + {parts[|parts| - 2]} else found
  }

  /** The OOV words one line contributes. */
  function OovWordsOf(line: string): set<string>
  {
    if Contains(Lower(line), NotFoundMarker) then NotPredecessors(Words(line)) else {}
  }

  /** One iteration of the loop of `parse_validation_log`. Once a line is known
      to mention `error`, a no-error phrase ends its processing before the
      indicators are looked at. */
  function ScanLine(st: ValidationStats, line: string): ValidationStats
  {
    var oovCount := if MentionsOov(line) then st.oovCount + 1 else st.oovCount;
    var oovWords := st.oovWords + OovWordsOf(line);
    var lower := Lower(line);
    var errorCount :=
      if !Contains(lower, "error") then st.errorCount
      else if ContainsAny(lower, NoErrorPhrases) then st.errorCount
      else if ContainsAny(lower, ErrorIndicators) then st.errorCount + 1
      else st.errorCount;
    ValidationStats(oovCount, oovWords, st.totalUtterances, errorCount)
  }

  /** The loop of `parse_validation_log` over the lines of a log. */
  function ParseLines(lines: seq<string>): (r: ValidationStats)
    ensures r.oovCount == |Matching(lines, IsOovLine)| <= |lines|
    ensures r.errorCount == |Matching(lines, IsErrorLine)| <= |lines|
    ensures r.totalUtterances == 0
    ensures forall w :: w in r.oovWords <==> exists k :: 0 <= k < |lines| && w in OovWordsOf(lines[k])
    decreases |lines|
  {
    if lines == [] then EmptyValidationStats
    else
      var init := lines[..|lines| - 1];
      var line := lines[|lines| - 1];
      assert lines == init + [line];
      assert forall k :: 0 <= k < |init| ==> init[k] == lines[k];
      MatchingSnoc(init, line, IsOovLine);
      MatchingSnoc(init, line, IsErrorLine);
      MentionsOovIffOovLine(line);
      ScanLine(ParseLines(init), line)
  }

  /** The validation log as the tools meet it: absent, present but failing to
      open or read, or read into its lines (`splitlines`). */
  datatype LogFile = Missing | Unreadable | Readable(lines: seq<string>)

  /** `parse_validation_log`: a missing log gives zero counts and no words, and
      so does one whose reading fails, since the handler returns the counters
      as they stood before the first line; otherwise the OOV count is the
      number of lines mentioning `oov`, the error count the number of error
      lines, and the words are those the lines contribute. */
  function ParseValidationLog(log: LogFile): (r: ValidationStats)
    ensures !log.Readable? ==> r == EmptyValidationStats
    ensures r.totalUtterances == 0
    ensures log.Readable? ==> r.oovCount == |Matching(log.lines, IsOovLine)| <= |log.lines|
    ensures log.Readable? ==> r.errorCount == |Matching(log.lines, IsErrorLine)| <= |log.lines|
    ensures log.Readable? ==> forall w :: w in r.oovWords <==>
      exists k :: 0 <= k < |log.lines| && w in OovWordsOf(log.lines[k])
  {
    match log
    case Readable(lines) => ParseLines(lines)
    case _ => EmptyValidationStats
  }

  /** A word enters the OOV set only from a line carrying the not-found marker,
      as the token right before a `not` token (never the first token), and
      exactly as written, without lower-casing. */
  lemma OovWordOrigin(lines: seq<string>, w: string)
    requires w in ParseLines(lines).oovWords
    ensures exists k, i ::
      && 0 <= k < |lines|
      && Contains(Lower(lines[k]), NotFoundMarker)
      && 1 <= i < |Words(lines[k])|
      && Lower(Words(lines[k])[i]) == "not"
      && Words(lines[k])[i - 1] == w
  {
    var k :| 0 <= k < |lines| && w in OovWordsOf(lines[k]);
    assert Contains(Lower(lines[k]), NotFoundMarker);
    var parts := Words(lines[k]);
    var i :| 1 <= i < |parts| && Lower(parts[i]) == "not" && parts[i - 1] == w;
  }

  /** A line is counted as an error exactly when the classifier's three tests
      pass; in particular a no-error phrase wins over any indicator. */
  lemma ErrorLineRule(st: ValidationStats, line: string)
    ensures ScanLine(st, line).errorCount == st.errorCount + (if IsErrorLine(line) then 1 else 0)
    ensures ContainsAny(Lower(line), NoErrorPhrases) ==> ScanLine(st, line).errorCount == st.errorCount
  {
  }

  /** The tokens of the example line used below. */
  lemma JoinFive(a: string, b: string, c: string, d: string, e: string)
    ensures JoinWithSpaces([a, b, c, d, e]) == a + " " + (b + " " + (c + " " + (d + " " + e)))
  {
    assert [d, e][1..] == [e];
    assert JoinWithSpaces([d, e]) == d + " " + e;
    assert [c, d, e][1..] == [d, e];
    assert JoinWithSpaces([c, d, e]) == c + " " + (d + " " + e);
    assert [b, c, d, e][1..] == [c, d, e];
    assert JoinWithSpaces([b, c, d, e]) == b + " " + (c + " " + (d + " " + e));
    assert [a, b, c, d, e][1..] == [b, c, d, e];
  }

  lemma ExampleLineWords(line: string)
    requires line == "word not found in dictionary"
    ensures Words(line) == ["word", "not", "found", "in", "dictionary"]
  {
    var ws := ["word", "not", "found", "in", "dictionary"];
    JoinFive(ws[0], ws[1], ws[2], ws[3], ws[4]);
    var t0 := JoinWithSpaces(ws);
    assert |t0| == |line|;
    forall i | 0 <= i < |t0| ensures t0[i] == line[i] {}
    assert line == t0;
    WordsOfJoin(ws);
  }

  lemma ExampleLineHasNoOov(line: string)
    requires line == "word not found in dictionary"
    ensures !Contains(line, "oov")
  {
    if Contains(line, "oov") {
      ContainsChar(line, "oov", 'v');
      assert false;
    }
  }

  lemma ExampleLineLower(line: string)
    requires line == "word not found in dictionary"
    ensures Lower(line) == line
  {
    forall i | 0 <= i < |line|
      ensures !IsUpperChar(line[i])
    {
      assert line[i] == "word not found in dictionary"[i];
    }
    LowerNoCapitals(line);
  }

  lemma ExampleLineHasMarker(line: string)
    requires line == "word not found in dictionary"
    ensures Contains(line, NotFoundMarker)
  {
    var pre := "word ";
    assert NotFoundMarker == "not found in dictionary";
    var x := pre + NotFoundMarker;
    forall i | 0 <= i < |x| ensures x[i] == line[i] {}
    assert line == x;
    assert line[|pre|..|pre| + |NotFoundMarker|] == NotFoundMarker;
    assert OccursAt(line, NotFoundMarker, |pre|);
    ContainsIffOccurs(line, NotFoundMarker);
  }

  lemma SecondIsNot(ws: seq<string>)
    requires |ws| >= 2 && Lower(ws[1]) == "not"
    ensures ws[0] in NotPredecessors(ws)
  {
    assert 1 <= 1 < |ws| && Lower(ws[1]) == "not" && ws[1 - 1] == ws[0];
  }

  lemma NoLaterNot(ws: seq<string>, w: string)
    requires |ws| >= 2
    requires forall i :: 2 <= i < |ws| ==> Lower(ws[i]) != "not"
    requires w in NotPredecessors(ws)
    ensures w == ws[0]
  {
    var i :| 1 <= i < |ws| && Lower(ws[i]) == "not" && ws[i - 1] == w;
    assert i == 1;
  }

  /** When only the second token reads `not`, the first token is the one word found. */
  lemma OnlySecondIsNot(ws: seq<string>)
    requires |ws| >= 2 && Lower(ws[1]) == "not"
    requires forall i :: 2 <= i < |ws| ==> Lower(ws[i]) != "not"
    ensures NotPredecessors(ws) == {ws[0]}
  {
    SecondIsNot(ws);
    forall w | w in NotPredecessors(ws) ensures w == ws[0] {
      NoLaterNot(ws, w);
    }
  }

  lemma ExampleTokensNotPredecessors(ws: seq<string>)
    requires ws == ["word", "not", "found", "in", "dictionary"]
    ensures NotPredecessors(ws) == {"word"}
  {
    var n := ws[1];
    assert n == "not";
    forall i | 0 <= i < |n| ensures !IsUpperChar(n[i]) {
      assert n[i] == "not"[i];
    }
    LowerNoCapitals(n);
    assert |ws[2]| == 5 && |ws[3]| == 2 && |ws[4]| == 10;
    assert forall i :: 2 <= i < |ws| ==> |Lower(ws[i])| != |"not"|;
    OnlySecondIsNot(ws);
  }

  lemma ExampleLineOovWords(line: string)
    requires line == "word not found in dictionary"
    ensures !IsOovLine(line)
    ensures OovWordsOf(line) == {"word"}
  {
    ExampleLineLower(line);
    ExampleLineHasNoOov(line);
    ExampleLineHasMarker(line);
    ExampleLineWords(line);
    ExampleTokensNotPredecessors(Words(line));
  }

  /** The number of distinct OOV words is not bounded by the OOV count: a
      not-found line need not mention `oov`. */
  lemma UniqueOovWordsMayExceedOccurrences(line: string)
    requires line == "word not found in dictionary"
    ensures ParseLines([line]).oovCount == 0
    ensures ParseLines([line]).oovWords == {"word"}
  {
    ExampleLineOovWords(line);
    var lines := [line];
    assert Matching(lines, IsOovLine) == {};
  }

  /** What `get_textgrid_stats` reports about the output directory. */
  datatype TextGridStats = TextGridStats(textgridCount: nat, textgridFiles: seq<string>)

  /** `get_textgrid_stats`: the `*.TextGrid` entries of the output directory,
      in listing order, and their number; nothing when the directory is absent. */
  function GetTextGridStats(outputDir: Option<seq<string>>): (r: TextGridStats)
    ensures r.textgridCount == |r.textgridFiles|
    ensures outputDir.None? ==> r.textgridFiles == []
    ensures outputDir.Some? ==> Selects(r.textgridFiles, outputDir.value, SuffixTest(TextGridSuffix))
    ensures forall k :: 0 <= k < |r.textgridFiles| ==> IsTextGridName(r.textgridFiles[k])
  {
    match outputDir
    case None => TextGridStats(0, [])
    case Some(listing) =>
      var files := Glob(listing, TextGridSuffix);
      assert forall k :: 0 <= k < |files| ==> files[k] in multiset(files);
      TextGridStats(|files|, files)
  }

  /** `calculate_coverage`: the percentage of audio files that got a TextGrid,
      zero when there is no audio. It is not clamped. The double-precision
      quotient of the source is modelled as an exact rational. */
  function Coverage(wavCount: nat, textgridCount: nat): (c: real)
    ensures wavCount == 0 ==> c == 0.0
    ensures wavCount > 0 ==> c * wavCount as real == 100.0 * textgridCount as real
  {
    if wavCount == 0 then 0.0
    else (textgridCount as real / wavCount as real) * 100.0
  }

  /** Multiplying by a positive number keeps the order of two reals. */
  lemma ScaleKeepsOrder(a: real, b: real, w: real)
    requires w > 0.0
    ensures a <= b <==> a * w <= b * w
    ensures a == b <==> a * w == b * w
  {
    assert (b - a) * w == b * w - a * w;
  }

  /** Coverage compared with a threshold is a comparison of counts. */
  lemma CoverageAtLeast(wavCount: nat, textgridCount: nat, pct: real)
    ensures wavCount > 0 ==> (Coverage(wavCount, textgridCount) >= pct <==>
      100.0 * textgridCount as real >= pct * wavCount as real)
  {
    if wavCount > 0 {
      ScaleKeepsOrder(pct, Coverage(wavCount, textgridCount), wavCount as real);
    }
  }

  /** The arithmetic behind `CoverageRange`, for any c with c·w = 100·t. */
  lemma ScaledRange(c: real, w: real, t: real)
    requires w > 0.0 && t >= 0.0 && c * w == 100.0 * t
    ensures t <= w ==> 0.0 <= c <= 100.0
    ensures c == 100.0 <==> t == w
    ensures w < t ==> c > 100.0
  {
    ScaleKeepsOrder(0.0, c, w);
    ScaleKeepsOrder(c, 100.0, w);
    assert 0.0 * w == 0.0;
    assert 100.0 * t <= 100.0 * w <==> t <= w;
    assert 100.0 * t == 100.0 * w <==> t == w;
  }

  /** Coverage lies in [0, 100] when no more TextGrids than audio files exist,
      is exactly 100 when the counts agree, and exceeds 100 when there are
      more TextGrids than audio files. */
  lemma CoverageRange(wavCount: nat, textgridCount: nat)
    ensures textgridCount <= wavCount ==> 0.0 <= Coverage(wavCount, textgridCount) <= 100.0
    ensures wavCount > 0 ==> (Coverage(wavCount, textgridCount) == 100.0 <==> textgridCount == wavCount)
    ensures 0 < wavCount < textgridCount ==> Coverage(wavCount, textgridCount) > 100.0
  {
    if wavCount > 0 {
      ScaledRange(Coverage(wavCount, textgridCount), wavCount as real, textgridCount as real);
    }
  }

  /** The closing line of the metrics report. */
  datatype Verdict = NoTextGrids | AllAligned | MostAligned | SomeNotAligned

  /** The summary branch of `print_metrics_report`, stated on the counts: no
      TextGrid at all; every audio file aligned; at least nine in ten; or
      fewer, which includes TextGrids with no audio files. */
  function SummaryVerdict(wavCount: nat, textgridCount: nat): (v: Verdict)
    ensures v == NoTextGrids <==> textgridCount == 0
    ensures v == AllAligned <==> 0 < wavCount <= textgridCount
    ensures v == MostAligned <==> 0 < wavCount && 9 * wavCount <= 10 * textgridCount < 10 * wavCount
    ensures v == SomeNotAligned <==> 0 < textgridCount && (wavCount == 0 || 10 * textgridCount < 9 * wavCount)
  {
    if textgridCount > 0 then
      var c := Coverage(wavCount, textgridCount);
      CoverageAtLeast(wavCount, textgridCount, 100.0);
      CoverageAtLeast(wavCount, textgridCount, 90.0);
      if c >= 100.0 then AllAligned
      else if c >= 90.0 then MostAligned
      else SomeNotAligned
    else NoTextGrids
  }

  /** The figures `print_metrics_report` shows. The validation figures are
      present exactly when the log exists; otherwise the report warns. */
  datatype MetricsReport = MetricsReport(
    wavCount: nat,
    labCount: nat,
    countMismatch: bool,
    textgrids: TextGridStats,
    coverage: real,
    validation: Option<ValidationStats>,
    verdict: Verdict)

  /** `print_metrics_report` without the printing: the corpus and output
      directories as listings and the validation log as a `LogFile`. The
      validation section is printed for every existing log, with zero counts
      when the log could not be read. */
  function MetricsReportOf(corpusDir: Option<seq<string>>, outputDir: Option<seq<string>>,
                           validateLog: LogFile): (r: MetricsReport)
    ensures r.wavCount == CountFilesByExtension(corpusDir, ".wav")
    ensures r.labCount == CountFilesByExtension(corpusDir, ".lab")
    ensures r.countMismatch <==> r.wavCount != r.labCount
    ensures r.validation.None? <==> validateLog.Missing?
    ensures validateLog.Unreadable? ==> r.validation == Some(EmptyValidationStats)
    ensures validateLog.Readable? ==> r.validation == Some(ParseLines(validateLog.lines))
    ensures corpusDir.None? ==> r.wavCount == 0 && r.labCount == 0 && r.coverage == 0.0
    ensures r.verdict == SummaryVerdict(r.wavCount, r.textgrids.textgridCount)
    ensures r.verdict == NoTextGrids <==> r.textgrids.textgridCount == 0
    ensures r.verdict == AllAligned <==> 0 < r.wavCount <= r.textgrids.textgridCount
    ensures r.coverage == Coverage(r.wavCount, r.textgrids.textgridCount)
    ensures r.textgrids == GetTextGridStats(outputDir)
  {
    var wavCount := CountFilesByExtension(corpusDir, ".wav");
    var labCount := CountFilesByExtension(corpusDir, ".lab");
    var tg := GetTextGridStats(outputDir);
    var coverage := Coverage(wavCount, tg.textgridCount);
    var validation: Option<ValidationStats> :=
      if validateLog.Missing? then None else Some(ParseValidationLog(validateLog));
    var verdict := SummaryVerdict(wavCount, tg.textgridCount);
    MetricsReport(wavCount, labCount, wavCount != labCount, tg, coverage, validation, verdict)
  }
}

=== FILE: oov.dfy ===
/** The out-of-vocabulary word utilities of tools/analyze_oov.py: the pattern
    buckets, the parsers of the two OOV files, the marker scan of the
    validation log and the merge of the word lists. */
module OovAnalysis {
  import opened Optional
  import opened Strings
  import opened Collections

  // ---------------------------------------------------------------------------
  // Pattern buckets (analyze_oov_patterns)

  /** The buckets `analyze_oov_patterns` fills; a word may land in several. */
  datatype Patterns = Patterns(
    numbers: seq<string>,
    hyphenated: seq<string>,
    contractions: seq<string>,
    uppercase: seq<string>,
    specialChars: seq<string>,
    short: seq<string>,
    long: seq<string>)

  const NoPatterns := Patterns([], [], [], [], [], [], [])

  predicate HasDigit(w: string)
  {
    exists k :: 0 <= k < |w| && IsDigit(w[k])
  }

  predicate IsHyphenated(w: string)
  {
    '-' in w
  }

  predicate IsContraction(w: string)
  {
    '\'' in w
  }

  /** `str.isupper()` on ASCII: some capital letter and no small letter. */
  predicate IsUpperWord(w: string)
  {
    (exists k :: 0 <= k < |w| && IsUpperChar(w[k])) && !(exists k :: 0 <= k < |w| && IsLowerChar(w[k]))
  }

  /** A potential acronym: upper case and longer than one character. */
  predicate IsAcronym(w: string)
  {
    IsUpperWord(w) && |w| > 1
  }

  /** Some character is neither alphanumeric nor a hyphen nor an apostrophe. */
  predicate HasSpecialChar(w: string)
  {
    exists k :: 0 <= k < |w| && !IsAlnum(w[k]) && w[k] != '-' && w[k] != '\''
  }

  predicate IsShort(w: string)
  {
    |w| <= 2
  }

  predicate IsLong(w: string)
  {
    |w| >= 15
  }

  /** One iteration of the loop of `analyze_oov_patterns`. */
  function Classify(p: Patterns, w: string): Patterns
  {
    Patterns(
      if HasDigit(w) then p.numbers + [w] else p.numbers,
      if IsHyphenated(w) then p.hyphenated + [w] else p.hyphenated,
      if IsContraction(w) then p.contractions + [w] else p.contractions,
      if IsAcronym(w) then p.uppercase + [w] else p.uppercase,
      if HasSpecialChar(w) then p.specialChars + [w] else p.specialChars,
      if IsShort(w) then p.short + [w] else p.short,
      if IsLong(w) then p.long + [w] else p.long)
  }

  /** `analyze_oov_patterns`: a single pass that appends each word to every
      bucket whose test it passes. Each bucket is the filter of the input by
      its test. */
  function AnalyzeOovPatterns(words: seq<string>): (r: Patterns)
    ensures r.numbers == Filter(words, HasDigit)
    ensures r.hyphenated == Filter(words, IsHyphenated)
    ensures r.contractions == Filter(words, IsContraction)
    ensures r.uppercase == Filter(words, IsAcronym)
    ensures r.specialChars == Filter(words, HasSpecialChar)
    ensures r.short == Filter(words, IsShort)
    ensures r.long == Filter(words, IsLong)
    decreases |words|
  {
    if words == [] then NoPatterns
    else Classify(AnalyzeOovPatterns(words[..|words| - 1]), words[|words| - 1])
  }

  /** Every bucket is a subsequence of the input that keeps order and
      duplicates and holds exactly the words passing its test. */
  lemma BucketsSelect(words: seq<string>)
    ensures var r := AnalyzeOovPatterns(words);
      && Selects(r.numbers, words, HasDigit)
      && Selects(r.hyphenated, words, IsHyphenated)
      && Selects(r.contractions, words, IsContraction)
      && Selects(r.uppercase, words, IsAcronym)
      && Selects(r.specialChars, words, HasSpecialChar)
      && Selects(r.short, words, IsShort)
      && Selects(r.long, words, IsLong)
  {
    FilterSelects(words, HasDigit);
    FilterSelects(words, IsHyphenated);
    FilterSelects(words, IsContraction);
    FilterSelects(words, IsAcronym);
    FilterSelects(words, HasSpecialChar);
    FilterSelects(words, IsShort);
    FilterSelects(words, IsLong);
  }

  /** No word is both short and long; no acronym has one character or less;
      a word made only of letters, digits, hyphens and apostrophes has no
      special character. */
  lemma BucketFacts(words: seq<string>, w: string)
    ensures var r := AnalyzeOovPatterns(words);
      && (w in r.short ==> w !in r.long)
      && (w in r.uppercase ==> |w| > 1)
      && ((forall k :: 0 <= k < |w| ==> IsAlnum(w[k]) || w[k] == '-' || w[k] == '\'') ==> w !in r.specialChars)
  {
    var r := AnalyzeOovPatterns(words);
    if w in r.short {
      FilterPasses(words, IsShort, w);
    }
    if w in r.long {
      FilterPasses(words, IsLong, w);
    }
    if w in r.uppercase {
      FilterPasses(words, IsAcronym, w);
    }
    if w in r.specialChars {
      FilterPasses(words, HasSpecialChar, w);
      var k :| 0 <= k < |w| && !IsAlnum(w[k]) && w[k] != '-' && w[k] != '\'';
      assert !(IsAlnum(w[k]) || w[k] == '-' || w[k] == '\'');
    }
  }

  /** `hyphenated` holds exactly the input words with a hyphen and
      `contractions` exactly those with an apostrophe, as often as they occur. */
  lemma HyphenAndApostropheBuckets(words: seq<string>, w: string)
    ensures var r := AnalyzeOovPatterns(words);
      && multiset(r.hyphenated)[w] == (if '-' in w then multiset(words)[w] else 0)
      && multiset(r.contractions)[w] == (if '\'' in w then multiset(words)[w] else 0)
  {
    BucketsSelect(words);
  }

  // ---------------------------------------------------------------------------
  // The OOV files (read_oov_files)

  predicate IsWordLine(line: string)
  {
    Strip(line) != []
  }

  /** The loop over `oovs_found.txt`: each line stripped, blank lines dropped. */
  function WordLines(lines: seq<string>): (r: seq<string>)
    ensures |r| == |Matching(lines, IsWordLine)| <= |lines|
    ensures forall k :: 0 <= k < |r| ==> r[k] != [] && Strip(r[k]) == r[k]
    decreases |lines|
  {
    if lines == [] then []
    else
      var init := lines[..|lines| - 1];
      var line := lines[|lines| - 1];
      assert lines == init + [line];
      MatchingSnoc(init, line, IsWordLine);
      StripIdempotent(line);
      var rest := WordLines(init);
      if IsWordLine(line) then rest + [Strip(line)] else rest
  }

  /** The entries are the non-blank lines, in order, each stripped. */
  lemma {:induction false} WordLinesAreStrippedWordLines(lines: seq<string>)
    ensures WordLines(lines) == Apply(Strip, Filter(lines, IsWordLine))
    decreases |lines|
  {
    if lines != [] {
      var init := lines[..|lines| - 1];
      WordLinesAreStrippedWordLines(init);
      var f := Filter(init, IsWordLine);
      assert Apply(Strip, f + [lines[|lines| - 1]])[..|f|] == Apply(Strip, f);
    }
  }

  /** The unique-word list of `read_oov_files`; empty when the file is absent. */
  function ReadWordList(file: Option<seq<string>>): (r: seq<string>)
    ensures file.None? ==> r == []
    ensures file.Some? ==> |r| == |Matching(file.value, IsWordLine)|
    ensures forall k :: 0 <= k < |r| ==> r[k] != [] && Strip(r[k]) == r[k]
  {
    match file
    case None => []
    case Some(lines) => WordLines(lines)
  }

  /** The words of one line of `utterance_oovs.txt`: the text after the first
      `:`, split on whitespace; nothing for a line without `:`. */
  function UtteranceTokens(line: string): (ws: seq<string>)
    ensures ':' !in line ==> ws == []
    ensures forall k :: 0 <= k < |ws| ==> IsToken(ws[k])
  {
    match AfterFirst(line, ':')
    case None => []
    case Some(rest) => Words(Strip(rest))
  }

  /** Only the text after the first `:` is split, so the utterance name
      before it is never counted. */
  lemma UtteranceNameSkipped(name: string, rest: string)
    requires ':' !in name
    ensures UtteranceTokens(name + ":" + rest) == Words(Strip(rest))
  {
    AfterFirstSplit(name, rest, ':');
    assert name + ":" + rest == name + [':'] + rest;
  }

  /** All the words of the utterance file, line after line. */
  function AllTokens(lines: seq<string>): (ws: seq<string>)
    ensures forall k :: 0 <= k < |ws| ==> IsToken(ws[k])
    decreases |lines|
  {
    if lines == [] then []
    else AllTokens(lines[..|lines| - 1]) + UtteranceTokens(lines[|lines| - 1])
  }

  /** The count `word_frequencies.get(word, 0)`. */
  function Frequency(m: map<string, nat>, w: string): nat
  {
    if w in m then m[w] else 0
  }

  /** A frequency table as the source keeps it: every stored count is positive. */
  ghost predicate PositiveCounts(m: map<string, nat>)
  {
    forall w :: w in m ==> m[w] >= 1
  }

  /** `word_frequencies[w] = word_frequencies.get(w, 0) + 1`. */
  function Bump(m: map<string, nat>, w: string): (r: map<string, nat>)
    ensures forall x :: Frequency(r, x) == Frequency(m, x) + (if x == w then 1 else 0)
    ensures PositiveCounts(m) ==> PositiveCounts(r)
    ensures SumValues(r) == SumValues(m) + 1
  {
    SumValuesUpdate(m, w, Frequency(m, w) + 1);
    m[w := Frequency(m, w) + 1]
  }

  /** One iteration of the inner loop: the word is stripped and, when
      non-empty, counted. A token passes both tests unchanged. */
  function AddToken(m: map<string, nat>, w: string): (r: map<string, nat>)
    requires IsToken(w)
    ensures forall x :: Frequency(r, x) == Frequency(m, x) + (if x == w then 1 else 0)
    ensures PositiveCounts(m) ==> PositiveCounts(r)
    ensures SumValues(r) == SumValues(m) + 1
  {
    StripToken(w);
    var t := Strip(w);
    if t != [] then Bump(m, t) else assert false; m
  }

  /** The inner loop over the words of one utterance. `split` yields tokens,
      so the source's own `strip` and emptiness test keep every word. */
  function AddTokens(m: map<string, nat>, ws: seq<string>): (r: map<string, nat>)
    requires forall k :: 0 <= k < |ws| ==> IsToken(ws[k])
    ensures forall w :: Frequency(r, w) == Frequency(m, w) + multiset(ws)[w]
    ensures PositiveCounts(m) ==> PositiveCounts(r)
    ensures SumValues(r) == SumValues(m) + |ws|
    decreases |ws|
  {
    if ws == [] then m
    else
      var init := ws[..|ws| - 1];
      var w := ws[|ws| - 1];
      assert ws == init + [w];
      var r := AddToken(AddTokens(m, init), w);
      assert forall x :: Frequency(r, x) == Frequency(m, x) + multiset(ws)[x] by {
        forall x
          ensures Frequency(r, x) == Frequency(m, x) + multiset(ws)[x]
        {
          assert multiset(ws)[x] == multiset(init)[x] + (if x == w then 1 else 0);
        }
      }
      r
  }

  /** The per-utterance frequency loop of `read_oov_files`. */
  function CountFrequencies(lines: seq<string>): (m: map<string, nat>)
    ensures PositiveCounts(m)
    ensures forall w :: Frequency(m, w) == multiset(AllTokens(lines))[w]
    ensures SumValues(m) == |AllTokens(lines)|
    decreases |lines|
  {
    if lines == [] then map[]
    else
      var init := lines[..|lines| - 1];
      AddTokens(CountFrequencies(init), UtteranceTokens(lines[|lines| - 1]))
  }

  /** The frequency table of `read_oov_files`; empty when the file is absent.
      Counts are positive and add up to the number of words, so there are no
      more distinct words than occurrences. */
  function ReadFrequencies(file: Option<seq<string>>): (m: map<string, nat>)
    ensures file.None? ==> m == map[]
    ensures PositiveCounts(m)
    ensures file.Some? ==> forall w :: Frequency(m, w) == multiset(AllTokens(file.value))[w]
    ensures file.Some? ==> SumValues(m) == |AllTokens(file.value)|
    ensures file.Some? ==> |m| <= |AllTokens(file.value)|
  {
    match file
    case None => map[]
    case Some(lines) =>
      var m := CountFrequencies(lines);
      KeysAtMostSum(m);
      m
  }

  // ---------------------------------------------------------------------------
  // The validation log (extract_oov_words_from_log)

  /** The markers searched for, in order. */
  const OovMarkers: seq<string> := ["OOV", "out of vocabulary", "not found in dictionary", "unknown word"]

  /** A non-empty run of `\w` characters. */
  predicate IsWordRun(w: string)
  {
    w != [] && forall k :: 0 <= k < |w| ==> IsWordChar(w[k])
  }

  datatype Match = Match(word: string, end: nat)

  /** The marker, matched case-insensitively, followed by `:` at position `i`. */
  predicate MarkerAt(content: string, i: nat, marker: string)
  {
    i + |marker| < |content| && Lower(content[i..i + |marker|]) == Lower(marker) && content[i + |marker|] == ':'
  }

  /** The tail `\s*(\w+)` of the pattern from position `p`: optional
      whitespace, then a maximal non-empty run of word characters. */
  function CaptureFrom(content: string, p: nat): (r: Option<Match>)
    requires p <= |content|
    ensures r.Some? ==> p <= r.value.end - |r.value.word| && r.value.end <= |content|
    ensures r.Some? ==> IsWordRun(r.value.word)
    ensures r.Some? ==> content[r.value.end - |r.value.word|..r.value.end] == r.value.word
    ensures r.Some? ==> r.value.end == |content| || !IsWordChar(content[r.value.end])
    ensures r.Some? ==> forall k :: p <= k < r.value.end - |r.value.word| ==> IsSpace(content[k])
    ensures r.None? <==> !WordAfterSpaces(content, p)
  {
    var gap := PrefixRun(content[p..], IsSpace);
    var n := PrefixRun(content[p + gap..], IsWordChar);
    CaptureRuns(content, p, content[p..], gap, content[p + gap..], n);
    if n > 0 then
      assert WordStartsAt(content, p, p + gap);
      Some(Match(content[p + gap..p + gap + n], p + gap + n))
    else
      NoWordAfterSpaces(content, p, p + gap);
      None
  }

  /** The two runs `CaptureFrom` measures on suffixes of `content` (`after`
      from `p`, `tail` from `p + gap`), restated on `content` itself. */
  lemma CaptureRuns(content: string, p: nat, after: string, gap: nat, tail: string, n: nat)
    requires p + gap <= |content| && after == content[p..] && tail == content[p + gap..]
    requires forall k :: 0 <= k < gap ==> IsSpace(after[k])
    requires gap < |after| ==> !IsSpace(after[gap])
    requires n <= |tail|
    requires forall k :: 0 <= k < n ==> IsWordChar(tail[k])
    requires n < |tail| ==> !IsWordChar(tail[n])
    ensures forall k :: p <= k < p + gap ==> IsSpace(content[k])
    ensures p + gap < |content| ==> !IsSpace(content[p + gap])
    ensures forall k :: p + gap <= k < p + gap + n ==> IsWordChar(content[k])
    ensures p + gap + n < |content| ==> !IsWordChar(content[p + gap + n])
  {
    assert forall k :: p <= k < |content| ==> content[k] == after[k - p];
    assert forall k :: p + gap <= k < |content| ==> content[k] == tail[k - p - gap];
  }

  /** A word character at `k` with only whitespace between `p` and `k`. */
  ghost predicate WordStartsAt(content: string, p: int, k: int)
  {
    0 <= p <= k < |content| && IsWordChar(content[k]) && forall t :: p <= t < k ==> IsSpace(content[t])
  }

  /** After the whitespace from `p`, a word character follows. */
  ghost predicate WordAfterSpaces(content: string, p: int)
  {
    exists k :: WordStartsAt(content, p, k)
  }

  lemma WordCharNotSpace(c: char)
    ensures IsWordChar(c) ==> !IsSpace(c)
  {
  }

  lemma NoWordAfterSpaces(content: string, p: int, j: int)
    requires 0 <= p <= j <= |content|
    requires forall t :: p <= t < j ==> IsSpace(content[t])
    requires j < |content| ==> !IsSpace(content[j]) && !IsWordChar(content[j])
    ensures !WordAfterSpaces(content, p)
  {
    forall k
      ensures !WordStartsAt(content, p, k)
    {
      if p <= k < |content| {
        if k < j {
          WordCharNotSpace(content[k]);
        } else if k > j {
          assert p <= j < k && !IsSpace(content[j]);
        }
      }
    }
  }

  /** An attempt of the pattern `<marker>:\s*(\w+)`, case-insensitively, at
      position `i`: the captured word and where the match ends. */
  function MatchAt(content: string, i: nat, marker: string): (r: Option<Match>)
    requires i <= |content|
    ensures r.Some? <==> MarkerAt(content, i, marker) && WordAfterSpaces(content, i + |marker| + 1)
    ensures r.Some? ==> i + |marker| < r.value.end - |r.value.word| && r.value.end <= |content|
    ensures r.Some? ==> IsWordRun(r.value.word)
    ensures r.Some? ==> content[r.value.end - |r.value.word|..r.value.end] == r.value.word
    ensures r.Some? ==> r.value.end == |content| || !IsWordChar(content[r.value.end])
    ensures r.Some? ==> forall k :: i + |marker| < k < r.value.end - |r.value.word| ==> IsSpace(content[k])
  {
    if MarkerAt(content, i, marker) then CaptureFrom(content, i + |marker| + 1) else None
  }

  /** Some attempt of the pattern for `marker` at a position from `i` on
      captures `w`. */
  ghost predicate CapturedFrom(content: string, marker: string, i: nat, w: string)
    requires i <= |content|
    decreases |content| - i
  {
    || (MatchAt(content, i, marker).Some? && MatchAt(content, i, marker).value.word == w)
    || (i < |content| && CapturedFrom(content, marker, i + 1, w))
  }

  lemma {:induction false} CapturedLater(content: string, marker: string, i: nat, j: nat, w: string)
    requires i <= j <= |content|
    requires CapturedFrom(content, marker, j, w)
    ensures CapturedFrom(content, marker, i, w)
    decreases j - i
  {
    if i < j {
      CapturedLater(content, marker, i + 1, j, w);
    }
  }

  /** `re.findall` of the pattern for one marker from position `i`: after a
      match the search resumes where the match ended. Every word found is a
      capture of the pattern at some position from `i` on. */
  function ScanFrom(content: string, marker: string, i: nat): (ws: seq<string>)
    requires i <= |content|
    ensures forall k :: 0 <= k < |ws| ==> IsWordRun(ws[k])
    ensures forall k :: 0 <= k < |ws| ==> CapturedFrom(content, marker, i, ws[k])
    decreases |content| - i
  {
    if i == |content| then []
    else
      match MatchAt(content, i, marker)
      case Some(found) =>
        var rest := ScanFrom(content, marker, found.end);
        assert forall k :: 0 <= k < |rest| ==> CapturedFrom(content, marker, i, rest[k]) by {
          forall k | 0 <= k < |rest|
            ensures CapturedFrom(content, marker, i, rest[k])
          {
            CapturedLater(content, marker, i, found.end, rest[k]);
          }
        }
        [found.word] + rest
      case None => ScanFrom(content, marker, i + 1)
  }

  /** With no successful attempt from `i` on, the scan finds nothing. */
  lemma {:induction false} ScanWithoutMatch(content: string, marker: string, i: nat)
    requires i <= |content|
    requires forall j :: i <= j < |content| ==> MatchAt(content, j, marker).None?
    ensures ScanFrom(content, marker, i) == []
    decreases |content| - i
  {
    if i < |content| {
      ScanWithoutMatch(content, marker, i + 1);
    }
  }

  /** A successful attempt at `j` gives the scan from any `i <= j` a word. */
  lemma {:induction false} ScanWithMatch(content: string, marker: string, i: nat, j: nat)
    requires i <= j < |content| && MatchAt(content, j, marker).Some?
    ensures ScanFrom(content, marker, i) != []
    decreases j - i
  {
    if i < j && MatchAt(content, i, marker).None? {
      ScanWithMatch(content, marker, i + 1, j);
    }
  }

  /** The scan from `i` finds nothing exactly when no attempt of the pattern
      at a position from `i` on succeeds. */
  lemma ScanEmptyIff(content: string, marker: string, i: nat)
    requires i <= |content|
    ensures ScanFrom(content, marker, i) == [] <==>
      forall j :: i <= j < |content| ==> MatchAt(content, j, marker).None?
  {
    if forall j :: i <= j < |content| ==> MatchAt(content, j, marker).None? {
      ScanWithoutMatch(content, marker, i);
    } else {
      var j :| i <= j < |content| && MatchAt(content, j, marker).Some?;
      ScanWithMatch(content, marker, i, j);
    }
  }

  /** The scan from `i` starts with the capture of the leftmost successful
      attempt at or after `i`, and resumes where that match ends. */
  lemma {:induction false} ScanFirstMatch(content: string, marker: string, i: nat, j: nat)
    requires i <= j < |content|
    requires MatchAt(content, j, marker).Some?
    requires forall k :: i <= k < j ==> MatchAt(content, k, marker).None?
    ensures ScanFrom(content, marker, i) ==
      [MatchAt(content, j, marker).value.word] + ScanFrom(content, marker, MatchAt(content, j, marker).value.end)
    decreases j - i
  {
    if i < j {
      ScanFirstMatch(content, marker, i + 1, j);
    }
  }

  /** Some marker of `markers` captures `w` somewhere in `content`. */
  ghost predicate CapturedBySome(content: string, markers: seq<string>, w: string)
  {
    exists m :: m in markers && CapturedFrom(content, m, 0, w)
  }

  /** The scans for each marker in turn, concatenated. */
  function ScanAll(content: string, markers: seq<string>): (ws: seq<string>)
    ensures forall k :: 0 <= k < |ws| ==> IsWordRun(ws[k])
    decreases |markers|
  {
    if markers == [] then [] else ScanFrom(content, markers[0], 0) + ScanAll(content, markers[1..])
  }

  /** Every word of the scans is a capture of one of the markers. */
  lemma {:induction false} ScanAllSound(content: string, markers: seq<string>)
    ensures forall k :: 0 <= k < |ScanAll(content, markers)| ==> CapturedBySome(content, markers, ScanAll(content, markers)[k])
    decreases |markers|
  {
    if markers != [] {
      var first := ScanFrom(content, markers[0], 0);
      var rest := ScanAll(content, markers[1..]);
      ScanAllSound(content, markers[1..]);
      assert forall k :: 0 <= k < |first| ==> CapturedBySome(content, markers, first[k]);
      forall k | 0 <= k < |rest|
        ensures CapturedBySome(content, markers, rest[k])
      {
        assert CapturedBySome(content, markers[1..], rest[k]);
        var m :| m in markers[1..] && CapturedFrom(content, m, 0, rest[k]);
        assert m in markers;
      }
      assert ScanAll(content, markers) == first + rest;
    }
  }

  /** The scans of all markers find nothing exactly when no attempt of any
      marker's pattern succeeds anywhere. */
  lemma {:induction false} ScanAllEmptyIff(content: string, markers: seq<string>)
    ensures ScanAll(content, markers) == [] <==>
      forall q, j :: 0 <= q < |markers| && 0 <= j < |content| ==> MatchAt(content, j, markers[q]).None?
    decreases |markers|
  {
    if markers != [] {
      ScanEmptyIff(content, markers[0], 0);
      ScanAllEmptyIff(content, markers[1..]);
      if ScanAll(content, markers) == [] {
        forall q, j | 0 <= q < |markers| && 0 <= j < |content|
          ensures MatchAt(content, j, markers[q]).None?
        {
          if q > 0 {
            assert markers[q] == markers[1..][q - 1];
          }
        }
      }
    }
  }

  /** Every word one marker's scan finds is in the scans of all markers. */
  lemma {:induction false} ScanAllKeepsEach(content: string, markers: seq<string>, q: nat)
    requires q < |markers|
    ensures forall w :: w in ScanFrom(content, markers[q], 0) ==> w in ScanAll(content, markers)
    decreases |markers|
  {
    var first := ScanFrom(content, markers[0], 0);
    var rest := ScanAll(content, markers[1..]);
    assert ScanAll(content, markers) == first + rest;
    if q > 0 {
      ScanAllKeepsEach(content, markers[1..], q - 1);
      assert markers[1..][q - 1] == markers[q];
    }
    InConcat(first, rest, ScanFrom(content, markers[q], 0));
  }

  /** `extract_oov_words_from_log`: nothing for a missing log; otherwise the
      words each marker captures, grouped marker by marker in the order of
      `OovMarkers`. Every word is a `\w` run that one of the markers
      captures. */
  function ExtractOovWordsFromLog(log: Option<string>): (ws: seq<string>)
    ensures log.None? ==> ws == []
    ensures forall k :: 0 <= k < |ws| ==> IsWordRun(ws[k])
    ensures log.Some? ==> forall k :: 0 <= k < |ws| ==> CapturedBySome(log.value, OovMarkers, ws[k])
  {
    match log
    case None => []
    case Some(content) =>
      ScanAllSound(content, OovMarkers);
      ScanAll(content, OovMarkers)
  }

  /** With four markers the scan is the four single-marker scans in order. */
  lemma ScanFourMarkers(content: string, ms: seq<string>)
    requires |ms| == 4
    ensures ScanAll(content, ms) ==
      ScanFrom(content, ms[0], 0) + ScanFrom(content, ms[1], 0) + ScanFrom(content, ms[2], 0) + ScanFrom(content, ms[3], 0)
  {
    var a, b, c, d := ScanFrom(content, ms[0], 0), ScanFrom(content, ms[1], 0), ScanFrom(content, ms[2], 0), ScanFrom(content, ms[3], 0);
    assert ms[1..][1..][1..][1..] == [];
    assert ScanAll(content, ms[1..][1..][1..]) == d;
    assert ScanAll(content, ms[1..][1..]) == c + d;
    assert ScanAll(content, ms[1..]) == b + (c + d);
    assert ScanAll(content, ms) == a + (b + (c + d));
  }

  /** The log's words come marker by marker, in the order of `OovMarkers`. */
  lemma LogWordsGroupedByMarker(content: string)
    ensures ExtractOovWordsFromLog(Some(content)) ==
      ScanFrom(content, OovMarkers[0], 0) + ScanFrom(content, OovMarkers[1], 0) +
      ScanFrom(content, OovMarkers[2], 0) + ScanFrom(content, OovMarkers[3], 0)
  {
    ScanFourMarkers(content, OovMarkers);
  }

  /** A log yields no words exactly when no marker's pattern matches anywhere
      in it. */
  lemma ExtractEmptyIff(content: string)
    ensures ExtractOovWordsFromLog(Some(content)) == [] <==>
      forall q, j :: 0 <= q < |OovMarkers| && 0 <= j < |content| ==> MatchAt(content, j, OovMarkers[q]).None?
  {
    ScanAllEmptyIff(content, OovMarkers);
  }

  /** For each marker, the word of its leftmost match in the log is among the
      words extracted. */
  lemma ExtractFindsFirstCapture(content: string, q: nat, j: nat)
    requires q < |OovMarkers| && j < |content|
    requires MatchAt(content, j, OovMarkers[q]).Some?
    requires forall k :: 0 <= k < j ==> MatchAt(content, k, OovMarkers[q]).None?
    ensures MatchAt(content, j, OovMarkers[q]).value.word in ExtractOovWordsFromLog(Some(content))
  {
    ScanFirstMatch(content, OovMarkers[q], 0, j);
    ScanAllKeepsEach(content, OovMarkers, q);
    assert ScanFrom(content, OovMarkers[q], 0)[0] == MatchAt(content, j, OovMarkers[q]).value.word;
  }

  // ---------------------------------------------------------------------------
  // main

  /** The merge in `main`: when the log contributed words, the union of both
      lists without duplicates (the source's order is that of a Python set and
      is not specified; this model keeps first occurrences); otherwise the
      word list as read, duplicates included. */
  function MergeOovWords(fileWords: seq<string>, logWords: seq<string>): (r: seq<string>)
    ensures logWords == [] ==> r == fileWords
    ensures logWords != [] ==> NoDup(r)
    ensures logWords != [] ==> forall w :: w in r <==> w in fileWords || w in logWords
  {
    if logWords == [] then fileWords else Dedup(fileWords + logWords)
  }
}

=== FILE: optional.dfy ===
/** The absent-or-present value the tools use for a file that may not exist
    (a missing log, a missing directory) and for a split that may not apply. */
module Optional {

  datatype Option<+T> = None | Some(value: T)
}

=== FILE: ordering.dfy ===
/** Python's ordering of strings (code point by code point, a proper prefix
    first) and `sorted` on a list of names. */
module Ordering {

  /** `a <= b` for Python strings. */
  predicate LexLe(a: string, b: string)
    decreases |a|
  {
    a == [] || (b != [] && (a[0] < b[0] || (a[0] == b[0] && LexLe(a[1..], b[1..]))))
  }

  lemma {:induction false} LexLeReflexive(a: string)
    ensures LexLe(a, a)
    decreases |a|
  {
    if a != [] {
      LexLeReflexive(a[1..]);
    }
  }

  lemma {:induction false} LexLeTotal(a: string, b: string)
    ensures LexLe(a, b) || LexLe(b, a)
    decreases |a|
  {
    if a != [] && b != [] && a[0] == b[0] {
      LexLeTotal(a[1..], b[1..]);
    }
  }

  lemma {:induction false} LexLeTransitive(a: string, b: string, c: string)
    requires LexLe(a, b) && LexLe(b, c)
    ensures LexLe(a, c)
    decreases |a|
  {
    if a != [] && a[0] == b[0] && b[0] == c[0] {
      LexLeTransitive(a[1..], b[1..], c[1..]);
    }
  }

  lemma {:induction false} LexLeAntisymmetric(a: string, b: string)
    requires LexLe(a, b) && LexLe(b, a)
    ensures a == b
    decreases |a|
  {
    if a != [] {
      LexLeAntisymmetric(a[1..], b[1..]);
      assert a == [a[0]] + a[1..] && b == [b[0]] + b[1..];
    }
  }

  ghost predicate Sorted(s: seq<string>)
  {
    forall i, j :: 0 <= i < j < |s| ==> LexLe(s[i], s[j])
  }

  /** Puts `x` in front of the first element it does not exceed. */
  function Insert(x: string, s: seq<string>): (r: seq<string>)
    requires Sorted(s)
    ensures Sorted(r)
    ensures multiset(r) == multiset(s) + multiset{x}
    decreases |s|
  {
    if s == [] then [x]
    else if LexLe(x, s[0]) then
      assert forall j :: 0 <= j < |s| ==> LexLe(x, s[j]) by {
        forall j | 0 <= j < |s| ensures LexLe(x, s[j]) {
          if j > 0 { LexLeTransitive(x, s[0], s[j]); }
        }
      }
      [x] + s
    else
      LexLeTotal(x, s[0]);
      var rest := Insert(x, s[1..]);
      assert s == [s[0]] + s[1..];
      assert forall j :: 0 <= j < |rest| ==> LexLe(s[0], rest[j]) by {
        forall j | 0 <= j < |rest| ensures LexLe(s[0], rest[j]) {
          assert rest[j] in multiset(rest);
          assert rest[j] in multiset(s[1..]) + multiset{x};
          if rest[j] != x {
            assert rest[j] in s[1..];
          }
        }
      }
      [s[0]] + rest
  }

  /** Python's `sorted` on strings: the same names, in ascending order. */
  function Sort(s: seq<string>): (r: seq<string>)
    ensures Sorted(r)
    ensures multiset(r) == multiset(s)
    decreases |s|
  {
    if s == [] then []
    else
      assert s == [s[0]] + s[1..];
      Insert(s[0], Sort(s[1..]))
  }

  /** Two sorted arrangements of one multiset start with the same name. */
  lemma SortedSameHead(a: seq<string>, b: seq<string>)
    requires Sorted(a) && Sorted(b) && multiset(a) == multiset(b) && a != [] && b != []
    ensures a[0] == b[0]
  {
    assert a[0] in multiset(b);
    assert b[0] in multiset(a);
    var i :| 0 <= i < |b| && b[i] == a[0];
    var j :| 0 <= j < |a| && a[j] == b[0];
    LexLeReflexive(a[0]);
    if i > 0 { assert LexLe(b[0], b[i]); }
    if j > 0 { assert LexLe(a[0], a[j]); }
    LexLeAntisymmetric(a[0], b[0]);
  }

  /** A sorted arrangement of a multiset of names is unique. */
  lemma {:induction false} SortedUnique(a: seq<string>, b: seq<string>)
    requires Sorted(a) && Sorted(b) && multiset(a) == multiset(b)
    ensures a == b
    decreases |a|
  {
    assert |b| == |a| by {
      assert |multiset(a)| == |a| && |multiset(b)| == |b|;
    }
    if a != [] {
      SortedSameHead(a, b);
      var a', b' := a[1..], b[1..];
      assert a == [a[0]] + a' && b == [b[0]] + b';
      assert multiset(a') == multiset(a) - multiset{a[0]};
      assert multiset(b') == multiset(b) - multiset{b[0]};
      assert Sorted(a') && Sorted(b');
      SortedUnique(a', b');
    }
  }
}

=== FILE: strings.dfy ===
/** The Python string operations the tools rely on, restricted to ASCII:
    `str.lower`, `in`, `strip`, `split` and `split(sep, 1)`. */
module Strings {
  import opened Optional
  import opened Collections

  /** ASCII characters that `str.isspace` accepts: tab, line feed, vertical
      tab, form feed, carriage return, the four separators 0x1c-0x1f and space. */
  predicate IsSpace(c: char)
  {
    9 <= c as int <= 13 || 28 <= c as int <= 32
  }

  predicate IsNonSpace(c: char)
  {
    !IsSpace(c)
  }

  predicate IsQuote(c: char)
  {
    c == '"'
  }

  predicate IsUpperChar(c: char)
  {
    'A' <= c <= 'Z'
  }

  predicate IsLowerChar(c: char)
  {
    'a' <= c <= 'z'
  }

  predicate IsDigit(c: char)
  {
    '0' <= c <= '9'
  }

  predicate IsAlnum(c: char)
  {
    IsUpperChar(c) || IsLowerChar(c) || IsDigit(c)
  }

  /** A character of the regular-expression class `\w`, on ASCII. */
  predicate IsWordChar(c: char)
  {
    IsAlnum(c) || c == '_'
  }

  function LowerChar(c: char): (r: char)
    ensures !IsUpperChar(r)
    ensures IsAlnum(r) <==> IsAlnum(c)
  {
    if IsUpperChar(c) then (c as int + 32) as char else c
  }

  /** `str.lower()` on ASCII text. */
  function Lower(s: string): (r: string)
    ensures |r| == |s|
    ensures forall i :: 0 <= i < |s| ==> r[i] == LowerChar(s[i])
    decreases |s|
  {
    if s == [] then [] else [LowerChar(s[0])] + Lower(s[1..])
  }

  /** Lower-casing commutes with taking a slice. */
  lemma LowerSlice(s: string, i: int, j: int)
    requires 0 <= i <= j <= |s|
    ensures Lower(s[i..j]) == Lower(s)[i..j]
  {
    var a, b := Lower(s[i..j]), Lower(s)[i..j];
    forall k | 0 <= k < |a|
      ensures a[k] == b[k]
    {
      assert s[i..j][k] == s[i + k];
    }
  }

  /** `sub` occurs in `s` starting at position `i`. */
  ghost predicate OccursAt(s: string, sub: string, i: int)
  {
    0 <= i && i + |sub| <= |s| && s[i..i + |sub|] == sub
  }

  /** Python's `sub in s`. */
  predicate Contains(s: string, sub: string)
    decreases |s|
  {
    |sub| <= |s| && (s[..|sub|] == sub || (|s| > 0 && Contains(s[1..], sub)))
  }

  /** `Contains` holds exactly when there is a position where `sub` occurs. */
  lemma {:induction false} ContainsIffOccurs(s: string, sub: string)
    ensures Contains(s, sub) <==> exists i :: OccursAt(s, sub, i)
    decreases |s|
  {
    if |sub| <= |s| {
      if s[..|sub|] == sub {
        assert OccursAt(s, sub, 0);
      } else if |s| > 0 {
        ContainsIffOccurs(s[1..], sub);
        if Contains(s[1..], sub) {
          var i :| OccursAt(s[1..], sub, i);
          assert s[1..][i..i + |sub|] == s[i + 1..i + 1 + |sub|];
          assert OccursAt(s, sub, i + 1);
        }
        if i :| OccursAt(s, sub, i) {
          assert i != 0;
          assert s[1..][i - 1..i - 1 + |sub|] == s[i..i + |sub|];
          assert OccursAt(s[1..], sub, i - 1);
        }
      } else {
        assert false;
      }
    }
  }

  /** Every character of a contained phrase is a character of the text. */
  lemma ContainsChar(s: string, sub: string, c: char)
    requires Contains(s, sub) && c in sub
    ensures c in s
  {
    ContainsIffOccurs(s, sub);
    var i :| OccursAt(s, sub, i);
    var j :| 0 <= j < |sub| && sub[j] == c;
    assert s[i + j] == s[i..i + |sub|][j];
  }

  lemma OccursLower(s: string, sub: string, i: int)
    requires OccursAt(s, sub, i)
    ensures OccursAt(Lower(s), Lower(sub), i)
  {
    LowerSlice(s, i, i + |sub|);
  }

  /** A phrase found in a text is found, lower-cased, in the lower-cased text. */
  lemma ContainsLower(s: string, sub: string)
    requires Contains(s, sub)
    ensures Contains(Lower(s), Lower(sub))
  {
    ContainsIffOccurs(s, sub);
    var i :| OccursAt(s, sub, i);
    OccursLower(s, sub, i);
    ContainsIffOccurs(Lower(s), Lower(sub));
  }

  predicate EndsWith(s: string, suffix: string)
  {
    |suffix| <= |s| && s[|s| - |suffix|..] == suffix
  }

  /** Length of the longest prefix of `s` made of characters `drop` accepts. */
  function PrefixRun(s: string, drop: char -> bool): (n: nat)
    ensures n <= |s|
    ensures forall k :: 0 <= k < n ==> drop(s[k])
    ensures n < |s| ==> !drop(s[n])
    decreases |s|
  {
    if |s| == 0 || !drop(s[0]) then 0 else 1 + PrefixRun(s[1..], drop)
  }

  /** Length of the longest suffix of `s` made of characters `drop` accepts. */
  function SuffixRun(s: string, drop: char -> bool): (n: nat)
    ensures n <= |s|
    ensures forall k :: |s| - n <= k < |s| ==> drop(s[k])
    ensures n < |s| ==> !drop(s[|s| - n - 1])
    decreases |s|
  {
    if |s| == 0 || !drop(s[|s| - 1]) then 0 else 1 + SuffixRun(s[..|s| - 1], drop)
  }

  /** `r` is `s` with the `drop` characters at both ends removed, `r` starting
      at position `i` of `s`: a slice of `s` whose surroundings are all dropped
      and whose own ends are not. */
  ghost predicate TrimmedAt(r: string, s: string, drop: char -> bool, i: int)
  {
    && OccursAt(s, r, i)
    && (forall k :: 0 <= k < i ==> drop(s[k]))
    && (forall k :: i + |r| <= k < |s| ==> drop(s[k]))
    && (|r| > 0 ==> !drop(r[0]) && !drop(r[|r| - 1]))
  }

  /** Python's `s.strip(chars)`, the characters given as a test. */
  function TrimBy(s: string, drop: char -> bool): (r: string)
    ensures exists i :: TrimmedAt(r, s, drop, i)
    ensures r == [] || (!drop(r[0]) && !drop(r[|r| - 1]))
  {
    var i := PrefixRun(s, drop);
    var t := s[i..];
    var j := SuffixRun(t, drop);
    ShiftSuffixRun(s, i, j, drop);
    TrimPieces(s, drop, i, j);
    s[i..|s| - j]
  }

  /** A text has one trimmed form: `TrimmedAt` pins the slice, so the
      contract of `TrimBy` fixes its result. */
  lemma TrimmedAtUnique(r1: string, r2: string, s: string, drop: char -> bool, i1: int, i2: int)
    requires TrimmedAt(r1, s, drop, i1) && TrimmedAt(r2, s, drop, i2)
    ensures r1 == r2
  {
    if |r1| > 0 && |r2| > 0 {
      assert s[i1] == r1[0] && s[i2] == r2[0];
      assert i1 == i2;
      assert s[i1 + |r1| - 1] == r1[|r1| - 1] && s[i2 + |r2| - 1] == r2[|r2| - 1];
      assert |r1| == |r2|;
    }
  }

  /** A trailing run of `s[i..]` is a trailing run of `s`. */
  lemma ShiftSuffixRun(s: string, i: nat, j: nat, drop: char -> bool)
    requires i <= |s| && j <= |s| - i
    requires forall k :: |s[i..]| - j <= k < |s[i..]| ==> drop(s[i..][k])
    requires j < |s[i..]| ==> !drop(s[i..][|s[i..]| - j - 1])
    ensures forall k :: |s| - j <= k < |s| ==> drop(s[k])
    ensures i + j < |s| ==> !drop(s[|s| - j - 1])
  {
    var t := s[i..];
    forall k | |s| - j <= k < |s|
      ensures drop(s[k])
    {
      assert s[k] == t[k - i];
    }
    if i + j < |s| {
      assert s[|s| - j - 1] == t[|t| - j - 1];
    }
  }

  /** The slice left between a leading run of `i` dropped characters and a
      trailing run of `j` is trimmed. */
  lemma TrimPieces(s: string, drop: char -> bool, i: nat, j: nat)
    requires i + j <= |s|
    requires forall k :: 0 <= k < i ==> drop(s[k])
    requires i < |s| ==> !drop(s[i])
    requires forall k :: |s| - j <= k < |s| ==> drop(s[k])
    requires i + j < |s| ==> !drop(s[|s| - j - 1])
    ensures TrimmedAt(s[i..|s| - j], s, drop, i)
  {
    var r := s[i..|s| - j];
    if |r| > 0 {
      assert r[|r| - 1] == s[|s| - j - 1];
      assert r[0] == s[i];
    }
  }

  /** Trimming removes exactly a leading run of `i` and a trailing run of `j`
      dropped characters when those runs are maximal. */
  lemma TrimByRuns(s: string, drop: char -> bool, i: nat, j: nat)
    requires i + j <= |s|
    requires forall k :: 0 <= k < i ==> drop(s[k])
    requires i < |s| ==> !drop(s[i])
    requires forall k :: |s| - j <= k < |s| ==> drop(s[k])
    requires i + j < |s| ==> !drop(s[|s| - j - 1])
    ensures TrimBy(s, drop) == s[i..|s| - j]
  {
    PrefixRunIs(s, drop, i);
    var t := s[i..];
    ShiftSuffixRunBack(s, i, j, drop);
    SuffixRunIs(t, drop, j);
  }

  /** A maximal leading run of `i` dropped characters is the one `PrefixRun`
      measures. */
  lemma PrefixRunIs(s: string, drop: char -> bool, i: nat)
    requires i <= |s|
    requires forall k :: 0 <= k < i ==> drop(s[k])
    requires i < |s| ==> !drop(s[i])
    ensures PrefixRun(s, drop) == i
  {
  }

  /** A maximal trailing run of `j` dropped characters is the one `SuffixRun`
      measures. */
  lemma SuffixRunIs(t: string, drop: char -> bool, j: nat)
    requires j <= |t|
    requires forall k :: |t| - j <= k < |t| ==> drop(t[k])
    requires j < |t| ==> !drop(t[|t| - j - 1])
    ensures SuffixRun(t, drop) == j
  {
  }

  /** A trailing run of `s` that stays right of position `i` is a trailing
      run of `s[i..]`. */
  lemma ShiftSuffixRunBack(s: string, i: nat, j: nat, drop: char -> bool)
    requires i + j <= |s|
    requires forall k :: |s| - j <= k < |s| ==> drop(s[k])
    requires i + j < |s| ==> !drop(s[|s| - j - 1])
    ensures forall k :: |s[i..]| - j <= k < |s[i..]| ==> drop(s[i..][k])
    ensures j < |s[i..]| ==> !drop(s[i..][|s[i..]| - j - 1])
  {
    var t := s[i..];
    forall k | |t| - j <= k < |t|
      ensures drop(t[k])
    {
      assert t[k] == s[i + k];
    }
    if j < |t| {
      assert t[|t| - j - 1] == s[|s| - j - 1];
    }
  }

  /** Trimming a text whose ends are kept leaves it unchanged. */
  lemma TrimKept(s: string, drop: char -> bool)
    requires s == [] || (!drop(s[0]) && !drop(s[|s| - 1]))
    ensures TrimBy(s, drop) == s
  {
    assert PrefixRun(s, drop) == 0;
    assert s[0..] == s;
  }

  /** Python's `s.strip()` with no argument. */
  function Strip(s: string): (r: string)
    ensures exists i :: TrimmedAt(r, s, IsSpace, i)
    ensures r == [] || (!IsSpace(r[0]) && !IsSpace(r[|r| - 1]))
  {
    TrimBy(s, IsSpace)
  }

  /** Stripping twice is stripping once. */
  lemma StripIdempotent(s: string)
    ensures Strip(Strip(s)) == Strip(s)
  {
    TrimKept(Strip(s), IsSpace);
  }

  /** An occurrence in the stripped text is an occurrence in the raw text. */
  lemma StrippedOccurrence(s: string, r: string, i: int, p: string, j: int)
    requires TrimmedAt(r, s, IsSpace, i) && OccursAt(r, p, j)
    ensures OccursAt(s, p, i + j)
  {
    assert forall t :: 0 <= t < |r| ==> r[t] == s[i..i + |r|][t];
    var x, y := s[i + j..i + j + |p|], r[j..j + |p|];
    assert forall t :: 0 <= t < |p| ==> x[t] == y[t];
    assert x == y;
  }

  /** An occurrence in the raw text of a phrase with non-space ends lies inside
      the stripped text. */
  lemma RawOccurrence(s: string, r: string, i: int, p: string, k: int)
    requires |p| > 0 && !IsSpace(p[0]) && !IsSpace(p[|p| - 1])
    requires TrimmedAt(r, s, IsSpace, i) && OccursAt(s, p, k)
    ensures OccursAt(r, p, k - i)
  {
    assert s[k] == s[k..k + |p|][0];
    assert s[k + |p| - 1] == s[k..k + |p|][|p| - 1];
    assert i <= k;
    assert k + |p| <= i + |r|;
    assert forall t :: 0 <= t < |r| ==> r[t] == s[i..i + |r|][t];
    var x, y := r[k - i..k - i + |p|], s[k..k + |p|];
    assert forall t :: 0 <= t < |p| ==> x[t] == y[t];
    assert x == y;
  }

  /** A phrase that neither starts nor ends with whitespace is found in the
      stripped text exactly when it is found in the raw text. */
  lemma StripKeepsPhrase(s: string, p: string)
    requires |p| > 0 && !IsSpace(p[0]) && !IsSpace(p[|p| - 1])
    ensures Contains(Strip(s), p) <==> Contains(s, p)
  {
    var r := Strip(s);
    var i :| TrimmedAt(r, s, IsSpace, i);
    ContainsIffOccurs(r, p);
    ContainsIffOccurs(s, p);
    if j :| OccursAt(r, p, j) {
      StrippedOccurrence(s, r, i, p, j);
    }
    if k :| OccursAt(s, p, k) {
      RawOccurrence(s, r, i, p, k);
    }
  }

  /** A token of `split()`: non-empty and free of whitespace. */
  predicate IsToken(w: string)
  {
    w != [] && forall k :: 0 <= k < |w| ==> !IsSpace(w[k])
  }

  /** A token is its own strip. */
  lemma StripToken(w: string)
    requires IsToken(w)
    ensures Strip(w) == w
  {
    TrimKept(w, IsSpace);
  }

  /** Python's `s.split()` with no separator: the maximal runs of
      non-whitespace characters, left to right. */
  function Words(s: string): (r: seq<string>)
    ensures forall k :: 0 <= k < |r| ==> IsToken(r[k])
    decreases |s|
  {
    if |s| == 0 then []
    else if IsSpace(s[0]) then Words(s[1..])
    else
      var n := PrefixRun(s, IsNonSpace);
      [s[..n]] + Words(s[n..])
  }

  /** A token followed by whitespace (or nothing) is the first token. */
  lemma WordsToken(a: string, b: string)
    requires IsToken(a) && (b == [] || IsSpace(b[0]))
    ensures Words(a + b) == [a] + Words(b)
  {
    var s := a + b;
    assert forall k :: 0 <= k < |a| ==> IsNonSpace(s[k]);
    assert |a| < |s| ==> !IsNonSpace(s[|a|]);
    var n := PrefixRun(s, IsNonSpace);
    assert n == |a|;
    assert s[..n] == a && s[n..] == b;
  }

  /** Leading whitespace is skipped. */
  lemma WordsSpace(c: char, b: string)
    requires IsSpace(c)
    ensures Words([c] + b) == Words(b)
  {
    assert ([c] + b)[1..] == b;
  }

  /** `w` occurs in `s` at `p` with whitespace or an end of `s` on both sides. */
  ghost predicate TokenAt(s: string, w: string, p: int)
  {
    && OccursAt(s, w, p)
    && (p == 0 || IsSpace(s[p - 1]))
    && (p + |w| == |s| || IsSpace(s[p + |w|]))
  }

  /** A token of `s[d..]` is a token of `s`, shifted by `d`, when it does not
      start the suffix or the character before the suffix is whitespace. */
  lemma TokenShift(s: string, d: nat, w: string, p: int)
    requires d <= |s| && IsToken(w) && TokenAt(s[d..], w, p)
    requires p == 0 ==> d == 0 || IsSpace(s[d - 1])
    ensures TokenAt(s, w, p + d)
  {
    var t := s[d..];
    assert forall k :: 0 <= k < |t| ==> t[k] == s[d + k];
    assert s[p + d..p + d + |w|] == t[p..p + |w|];
  }

  /** `ps` places each token of `ws` in `s`, left to right: token `k` sits at
      `ps[k]` between whitespace or the ends of `s`, and each token ends
      before the next one starts, with at least one character between them. */
  ghost predicate TokensAt(s: string, ws: seq<string>, ps: seq<nat>)
  {
    && |ps| == |ws|
    && (forall k :: 0 <= k < |ps| ==> TokenAt(s, ws[k], ps[k]))
    && (forall k :: 0 <= k < |ps| - 1 ==> ps[k] + |ws[k]| < ps[k + 1])
  }

  /** Tokens placed in `s[d..]` are placed in `s`, `d` further right, when
      the first of them cannot start the suffix right after a non-space. */
  lemma ShiftTokens(s: string, d: nat, ws: seq<string>, qs: seq<nat>) returns (ps: seq<nat>)
    requires d <= |s| && TokensAt(s[d..], ws, qs)
    requires forall k :: 0 <= k < |ws| ==> IsToken(ws[k])
    requires d == 0 || IsSpace(s[d - 1]) || forall k :: 0 <= k < |qs| ==> qs[k] > 0
    ensures |ps| == |qs| && forall k :: 0 <= k < |ps| ==> ps[k] == qs[k] + d
    ensures TokensAt(s, ws, ps)
  {
    ps := seq(|qs|, k requires 0 <= k < |qs| => qs[k] + d);
    forall k | 0 <= k < |ps|
      ensures TokenAt(s, ws[k], ps[k])
    {
      TokenShift(s, d, ws[k], qs[k]);
    }
  }

  /** A token placed before the first of some placed tokens extends them. */
  lemma ConsToken(s: string, w: string, p: nat, ws: seq<string>, ps: seq<nat>)
    requires TokenAt(s, w, p) && TokensAt(s, ws, ps)
    requires |ps| > 0 ==> p + |w| < ps[0]
    ensures TokensAt(s, [w] + ws, [p] + ps)
  {
    var ws', ps' := [w] + ws, [p] + ps;
    assert forall k :: 1 <= k < |ps'| ==> ws'[k] == ws[k - 1] && ps'[k] == ps[k - 1];
  }

  /** The positions of the tokens of `split()`, left to right. */
  lemma {:induction false} WordPositions(s: string) returns (ps: seq<nat>)
    ensures TokensAt(s, Words(s), ps)
    ensures |s| > 0 && IsSpace(s[0]) ==> forall k :: 0 <= k < |ps| ==> ps[k] > 0
    decreases |s|
  {
    if |s| == 0 {
      ps := [];
    } else if IsSpace(s[0]) {
      assert Words(s) == Words(s[1..]);
      var qs := WordPositions(s[1..]);
      ps := ShiftTokens(s, 1, Words(s), qs);
    } else {
      var n := PrefixRun(s, IsNonSpace);
      var rest := s[n..];
      assert Words(s) == [s[..n]] + Words(rest);
      var qs := WordPositions(rest);
      var shifted := ShiftTokens(s, n, Words(rest), qs);
      assert TokenAt(s, s[..n], 0);
      ConsToken(s, s[..n], 0, Words(rest), shifted);
      ps := [0] + shifted;
    }
  }

  /** `split()` returns the maximal runs of non-whitespace characters left to
      right: each token occurs in the text with whitespace or an end of the
      text on each side, and the tokens occur in increasing positions. */
  lemma WordsAreMaximalRuns(s: string)
    ensures exists ps :: TokensAt(s, Words(s), ps)
  {
    var ps := WordPositions(s);
  }

  /** Python's `" ".join(ws)`. */
  function JoinWithSpaces(ws: seq<string>): string
    decreases |ws|
  {
    if |ws| == 0 then []
    else if |ws| == 1 then ws[0]
    else ws[0] + " " + JoinWithSpaces(ws[1..])
  }

  /** Splitting undoes joining tokens with single spaces. */
  lemma {:induction false} WordsOfJoin(ws: seq<string>)
    requires forall k :: 0 <= k < |ws| ==> IsToken(ws[k])
    ensures Words(JoinWithSpaces(ws)) == ws
    decreases |ws|
  {
    if |ws| == 1 {
      WordsToken(ws[0], []);
      assert ws[0] + [] == ws[0];
    } else if |ws| > 1 {
      var rest := JoinWithSpaces(ws[1..]);
      WordsOfJoin(ws[1..]);
      WordsSpace(' ', rest);
      assert (" " + rest)[0] == ' ';
      WordsToken(ws[0], " " + rest);
      assert ws[0] + " " + rest == ws[0] + (" " + rest);
      assert ws == [ws[0]] + ws[1..];
    }
  }

  /** Lower-casing a text without capitals changes nothing. */
  lemma LowerNoCapitals(s: string)
    requires forall i :: 0 <= i < |s| ==> !IsUpperChar(s[i])
    ensures Lower(s) == s
  {
  }

  /** The concatenation of a sequence of strings. */
  function Flatten(ss: seq<string>): string
    decreases |ss|
  {
    if ss == [] then [] else ss[0] + Flatten(ss[1..])
  }

  /** Splitting loses exactly the whitespace: glued back together, the tokens
      are the non-whitespace characters of the text, in order. */
  lemma {:induction false} WordsKeepNonSpace(s: string)
    ensures Flatten(Words(s)) == Filter(s, IsNonSpace)
    decreases |s|
  {
    if |s| == 0 {
    } else if IsSpace(s[0]) {
      assert s == [s[0]] + s[1..];
      FilterConcat([s[0]], s[1..], IsNonSpace);
      assert Filter([s[0]], IsNonSpace) == [] by {
        assert [s[0]][..0] == [];
      }
      WordsKeepNonSpace(s[1..]);
    } else {
      var n := PrefixRun(s, IsNonSpace);
      assert s == s[..n] + s[n..];
      FilterConcat(s[..n], s[n..], IsNonSpace);
      FilterKeepsAll(s[..n], IsNonSpace);
      WordsKeepNonSpace(s[n..]);
      var ws := [s[..n]] + Words(s[n..]);
      assert ws[0] == s[..n] && ws[1..] == Words(s[n..]);
    }
  }

  /** Position of the first `c` in `s`, or `|s|` when there is none. */
  function IndexOf(s: string, c: char): (i: nat)
    ensures i <= |s|
    ensures i < |s| ==> s[i] == c
    ensures c !in s[..i]
    decreases |s|
  {
    if |s| == 0 || s[0] == c then 0
    else
      var k := IndexOf(s[1..], c);
      assert s[..1 + k] == [s[0]] + s[1..][..k];
      1 + k
  }

  /** `s.split(c, 1)[1]`: the text after the first `c`, absent when `s` has no `c`. */
  function AfterFirst(s: string, c: char): (r: Option<string>)
    ensures r.None? <==> c !in s
    ensures r.Some? ==> |r.value| < |s| && s[|s| - |r.value| - 1] == c
    ensures r.Some? ==> s[|s| - |r.value|..] == r.value && c !in s[..|s| - |r.value| - 1]
  {
    var i := IndexOf(s, c);
    if i == |s| then
      assert s[..i] == s;
      None
    else Some(s[i + 1..])
  }

  /** The text after the first `c` of `a + [c] + b`, when `a` has no `c`, is `b`. */
  lemma AfterFirstSplit(a: string, b: string, c: char)
    requires c !in a
    ensures AfterFirst(a + [c] + b, c) == Some(b)
  {
    var s := a + [c] + b;
    assert s[|a|] == c;
    var r := AfterFirst(s, c);
    var p := |s| - |r.value| - 1;
    assert forall q :: 0 <= q < |a| ==> s[q] == a[q];
    assert forall q :: |a| < q <= |s| ==> s[..q][|a|] == c;
    assert p == |a|;
    assert s[|a| + 1..] == b;
  }
}

=== FILE: textgrids.dfy ===
/** The TextGrid analyser of tools/analyze_textgrids.py: a line-by-line state
    machine that counts intervals per tier, the aggregation over files and the
    sorted directory walk. Durations (`xmax`) are not modelled. */
module TextGrids {
  import opened Optional
  import opened Strings
  import opened Collections
  import opened Ordering
  import opened Files

  /** The tier the scan is in; `NoTier` before the first `name =` line. */
  datatype Tier = NoTier | WordsTier | PhonesTier | UnknownTier

  /** The counters of `read_textgrid` and the current tier. */
  datatype ScanState = ScanState(tier: Tier, intervals: nat, words: nat, phones: nat, empty: nat)

  const Start := ScanState(NoTier, 0, 0, 0, 0)

  /** No more words, phones and empty intervals than intervals. */
  predicate Balanced(st: ScanState)
  {
    st.empty + st.words + st.phones <= st.intervals
  }

  /** A line (after stripping) that names a tier. */
  predicate IsNameLine(raw: string)
  {
    Contains(Strip(raw), "name =")
  }

  /** A line (after stripping) that carries an interval text. */
  predicate IsTextLine(raw: string)
  {
    Contains(Strip(raw), "text =")
  }

  /** Stripping the line first does not change either test. */
  lemma StripDoesNotChangeTests(raw: string)
    ensures IsNameLine(raw) <==> Contains(raw, "name =")
    ensures IsTextLine(raw) <==> Contains(raw, "text =")
  {
    StripKeepsPhrase(raw, "name =");
    StripKeepsPhrase(raw, "text =");
  }

  /** The tier a `name =` line selects: a quoted `words` wins over a quoted
      `phones`; anything else is an unknown tier. */
  function TierOfName(line: string): (t: Tier)
    ensures t != NoTier
    ensures t == WordsTier <==> Contains(line, "\"words\"") || Contains(line, "'words'")
    ensures t == PhonesTier <==>
      && !(Contains(line, "\"words\"") || Contains(line, "'words'"))
      && (Contains(line, "\"phones\"") || Contains(line, "'phones'"))
  {
    if Contains(line, "\"words\"") || Contains(line, "'words'") then WordsTier
    else if Contains(line, "\"phones\"") || Contains(line, "'phones'") then PhonesTier
    else UnknownTier
  }

  /** The characters the three strips of an interval text remove. */
  predicate IsSpaceOrQuote(c: char)
  {
    IsSpace(c) || IsQuote(c)
  }

  /** `v` occurs in `s` at `i`, and every character of `s` around it is
      whitespace or `"`. */
  ghost predicate PaddedAt(v: string, s: string, i: int)
  {
    && OccursAt(s, v, i)
    && (forall k :: 0 <= k < i ==> IsSpaceOrQuote(s[k]))
    && (forall k :: i + |v| <= k < |s| ==> IsSpaceOrQuote(s[k]))
  }

  lemma StripPadded(r: string, s: string, i: int)
    requires TrimmedAt(r, s, IsSpace, i)
    ensures PaddedAt(r, s, i)
  {
  }

  lemma QuoteTrimPadded(r: string, s: string, i: int)
    requires TrimmedAt(r, s, IsQuote, i)
    ensures PaddedAt(r, s, i)
  {
  }

  /** Padding inside padding is padding. */
  lemma PaddedCompose(r: string, s: string, i: int, u: string, j: int)
    requires PaddedAt(r, s, i) && PaddedAt(s, u, j)
    ensures PaddedAt(r, u, i + j)
  {
    assert forall k :: 0 <= k < |s| ==> s[k] == u[j + k];
    assert forall k :: 0 <= k < |r| ==> r[k] == s[i + k];
    assert u[i + j..i + j + |r|] == r;
  }

  /** Whitespace, then `"`, then whitespace trimmed leave a slice with only
      whitespace and `"` around it. */
  lemma TrimsPadded(rest: string, s1: string, s2: string, t: string, i: int, j: int, k: int)
    requires TrimmedAt(s1, rest, IsSpace, i)
    requires TrimmedAt(s2, s1, IsQuote, j)
    requires TrimmedAt(t, s2, IsSpace, k)
    ensures PaddedAt(t, rest, k + j + i)
  {
    StripPadded(s1, rest, i);
    QuoteTrimPadded(s2, s1, j);
    StripPadded(t, s2, k);
    PaddedCompose(t, s2, k, s1, j);
    PaddedCompose(t, s1, k + j, rest, i);
  }

  /** The three strips of an interval text leave a slice of it with only
      whitespace and `"` around it. */
  lemma StripsPadded(rest: string)
    ensures exists n :: PaddedAt(Strip(TrimBy(Strip(rest), IsQuote)), rest, n)
  {
    var s1 := Strip(rest);
    var s2 := TrimBy(s1, IsQuote);
    var t := Strip(s2);
    var i :| TrimmedAt(s1, rest, IsSpace, i);
    var j :| TrimmedAt(s2, s1, IsQuote, j);
    var k :| TrimmedAt(t, s2, IsSpace, k);
    TrimsPadded(rest, s1, s2, t, i, j, k);
  }

  /** `t` is what `strip()`, then `strip('"')`, then `strip()` leave of
      `rest`, each step stated by its trimmed slice. */
  ghost predicate StripsTo(t: string, rest: string)
  {
    exists s1, s2, i, j, k ::
      && TrimmedAt(s1, rest, IsSpace, i)
      && TrimmedAt(s2, s1, IsQuote, j)
      && TrimmedAt(t, s2, IsSpace, k)
  }

  /** The three strips have one outcome, so `StripsTo` fixes the value. */
  lemma StripsToUnique(t1: string, t2: string, rest: string)
    requires StripsTo(t1, rest) && StripsTo(t2, rest)
    ensures t1 == t2
  {
    var a1, b1, i1, j1, k1 :| TrimmedAt(a1, rest, IsSpace, i1) && TrimmedAt(b1, a1, IsQuote, j1) && TrimmedAt(t1, b1, IsSpace, k1);
    var a2, b2, i2, j2, k2 :| TrimmedAt(a2, rest, IsSpace, i2) && TrimmedAt(b2, a2, IsQuote, j2) && TrimmedAt(t2, b2, IsSpace, k2);
    TrimmedAtUnique(a1, a2, rest, IsSpace, i1, i2);
    TrimmedAtUnique(b1, b2, a1, IsQuote, j1, j2);
    TrimmedAtUnique(t1, t2, b1, IsSpace, k1, k2);
  }

  /** The three strips of an interval text are what `StripsTo` describes. */
  lemma ThreeStrips(rest: string)
    ensures StripsTo(Strip(TrimBy(Strip(rest), IsQuote)), rest)
  {
    var s1 := Strip(rest);
    var s2 := TrimBy(s1, IsQuote);
    var t := Strip(s2);
    var i :| TrimmedAt(s1, rest, IsSpace, i);
    var j :| TrimmedAt(s2, s1, IsQuote, j);
    var k :| TrimmedAt(t, s2, IsSpace, k);
  }

  /** `line.split('=', 1)[1].strip().strip('"').strip()`: absent only when the
      line has no `=`; otherwise the outcome of the three strips of the text
      after the first `=` (which `StripsToUnique` shows is one string): a
      slice of that text with only whitespace and `"` around it, and without
      whitespace at either end. */
  function TextValue(line: string): (r: Option<string>)
    ensures r.None? <==> '=' !in line
    ensures r.Some? ==> AfterFirst(line, '=').Some? && StripsTo(r.value, AfterFirst(line, '=').value)
    ensures r.Some? ==> AfterFirst(line, '=').Some? && exists i :: PaddedAt(r.value, AfterFirst(line, '=').value, i)
    ensures r.Some? ==> r.value == [] || (!IsSpace(r.value[0]) && !IsSpace(r.value[|r.value| - 1]))
    ensures r.Some? ==> |r.value| < |line|
  {
    match AfterFirst(line, '=')
    case None => None
    case Some(rest) =>
      var t := Strip(TrimBy(Strip(rest), IsQuote));
      StripsPadded(rest);
      ThreeStrips(rest);
      Some(t)
  }

  /** The first strip of ` "w"` removes the leading space. */
  lemma StripQuoted(w: string, rest: string)
    requires rest == [' ', '"'] + w + ['"']
    ensures Strip(rest) == ['"'] + w + ['"']
  {
    TrimByRuns(rest, IsSpace, 1, 0);
    assert rest[1..|rest| - 0] == ['"'] + w + ['"'];
  }

  /** Stripping `"` from `"w"` gives `w` when `w` has no `"` at either end. */
  lemma UnquoteQuoted(w: string, q: string)
    requires w == [] || (!IsQuote(w[0]) && !IsQuote(w[|w| - 1]))
    requires q == ['"'] + w + ['"']
    ensures TrimBy(q, IsQuote) == w
  {
    if w == [] {
      TrimByRuns(q, IsQuote, 2, 0);
    } else {
      TrimByRuns(q, IsQuote, 1, 1);
      assert q[1..|q| - 1] == w;
    }
  }

  /** The three strips of ` "w"` give back `w` when `w` neither starts nor
      ends with whitespace or `"`. */
  lemma QuotedStrips(w: string, rest: string)
    requires w == [] || (!IsSpaceOrQuote(w[0]) && !IsSpaceOrQuote(w[|w| - 1]))
    requires rest == [' ', '"'] + w + ['"']
    ensures Strip(TrimBy(Strip(rest), IsQuote)) == w
  {
    StripQuoted(w, rest);
    UnquoteQuoted(w, ['"'] + w + ['"']);
    TrimKept(w, IsSpace);
  }

  /** `text = "w"` has the value `w` when `w` neither starts nor ends with
      whitespace or `"`: the quotes around an interval text are not part of
      it. */
  lemma QuotedTextValue(w: string, line: string)
    requires w == [] || (!IsSpaceOrQuote(w[0]) && !IsSpaceOrQuote(w[|w| - 1]))
    requires line == "text = \"" + w + "\""
    ensures TextValue(line) == Some(w)
  {
    var rest := [' ', '"'] + w + ['"'];
    assert line == "text " + ['='] + rest;
    AfterFirstSplit("text ", rest, '=');
    QuotedStrips(w, rest);
  }

  /** An empty quoted text gives the empty value. */
  lemma EmptyQuotedText(line: string)
    requires line == "text = \"\""
    ensures TextValue(line) == Some([])
  {
    QuotedTextValue([], line);
  }

  /** A quoted word gives the word without its quotes. */
  lemma QuotedWordText(line: string)
    requires line == "text = \"a\""
    ensures TextValue(line) == Some("a")
  {
    QuotedTextValue("a", line);
  }

  /** The text of an interval line, empty for any other line. */
  function TextOf(raw: string): string
  {
    match TextValue(Strip(raw))
    case None => []
    case Some(t) => t
  }

  /** One iteration of the second loop of `read_textgrid`. */
  function Step(st: ScanState, raw: string): (r: ScanState)
    ensures r.tier == if IsNameLine(raw) then TierOfName(Strip(raw)) else st.tier
    ensures r.intervals == st.intervals + (if IsTextLine(raw) then 1 else 0)
    ensures r.empty == st.empty + (if IsTextLine(raw) && TextOf(raw) == [] then 1 else 0)
    ensures r.words == st.words + (if IsTextLine(raw) && TextOf(raw) != [] && r.tier == WordsTier then 1 else 0)
    ensures r.phones == st.phones + (if IsTextLine(raw) && TextOf(raw) != [] && r.tier == PhonesTier then 1 else 0)
  {
    var line := Strip(raw);
    var tier := if Contains(line, "name =") then TierOfName(line) else st.tier;
    if !Contains(line, "text =") then st.(tier := tier)
    else
      ContainsChar(line, "text =", '=');
      match TextValue(line)
      case None => st.(tier := tier)
      case Some(text) =>
        var counted := st.(tier := tier, intervals := st.intervals + 1);
        if text == [] then counted.(empty := st.empty + 1)
        else if tier == WordsTier then counted.(words := st.words + 1)
        else if tier == PhonesTier then counted.(phones := st.phones + 1)
        else counted
  }

  /** The scan over all lines of a file. Every text line adds one interval and
      no other line does; words, phones and empty intervals never outnumber
      the intervals. */
  function Run(lines: seq<string>): (r: ScanState)
    ensures r.intervals == |Matching(lines, IsTextLine)| <= |lines|
    ensures Balanced(r)
    decreases |lines|
  {
    if lines == [] then Start
    else
      var init := lines[..|lines| - 1];
      var line := lines[|lines| - 1];
      assert lines == init + [line];
      MatchingSnoc(init, line, IsTextLine);
      Step(Run(init), line)
  }

  /** Every text line is met while the scan is in the words or the phones
      tier (the tier after that line's own `name =` update, if any). */
  ghost predicate AllTextClassified(lines: seq<string>)
    decreases |lines|
  {
    lines != [] ==>
      var init := lines[..|lines| - 1];
      var tier := Step(Run(init), lines[|lines| - 1]).tier;
      && AllTextClassified(init)
      && (IsTextLine(lines[|lines| - 1]) ==> tier == WordsTier || tier == PhonesTier)
  }

  /** One step keeps the counts accounted for when a text line falls under
      the words or the phones tier. */
  lemma StepKeepsAccounted(st: ScanState, raw: string)
    requires st.empty + st.words + st.phones == st.intervals
    requires IsTextLine(raw) ==> Step(st, raw).tier == WordsTier || Step(st, raw).tier == PhonesTier
    ensures var r := Step(st, raw); r.empty + r.words + r.phones == r.intervals
  {
  }

  /** When every text line falls under the words or the phones tier, the
      words, phones and empty intervals account for all intervals. */
  lemma {:induction false} ClassifiedTextBalances(lines: seq<string>)
    requires AllTextClassified(lines)
    ensures Run(lines).empty + Run(lines).words + Run(lines).phones == Run(lines).intervals
    decreases |lines|
  {
    if lines != [] {
      var n := |lines|;
      var init := lines[..n - 1];
      ClassifiedTextBalances(init);
      assert Run(lines) == Step(Run(init), lines[n - 1]);
      StepKeepsAccounted(Run(init), lines[n - 1]);
    }
  }

  /** A non-empty text met before any tier name, or in an unknown tier, adds
      an interval and nothing else. */
  lemma UnclassifiedTextOnlyCountsInterval(st: ScanState, raw: string)
    requires IsTextLine(raw) && TextOf(raw) != []
    requires Step(st, raw).tier == NoTier || Step(st, raw).tier == UnknownTier
    ensures Step(st, raw) == st.(tier := Step(st, raw).tier, intervals := st.intervals + 1)
  {
  }

  /** What `read_textgrid` returns, without the duration. */
  datatype FileStats = FileStats(
    filename: string,
    intervalCount: nat,
    wordCount: nat,
    phoneCount: nat,
    emptyIntervals: nat,
    hasErrors: bool)

  predicate HasErrors(f: FileStats)
  {
    f.hasErrors
  }

  predicate FileBalanced(f: FileStats)
  {
    f.emptyIntervals + f.wordCount + f.phoneCount <= f.intervalCount
  }

  /** `read_textgrid` on a file given by name and content (its lines), the
      content absent when the file cannot be read: then every count is zero
      and the error flag is set. */
  function ReadTextGrid(name: string, content: Option<seq<string>>): (r: FileStats)
    ensures r.filename == name
    ensures r.hasErrors <==> content.None?
    ensures content.None? ==> r.intervalCount == 0
    ensures content.Some? ==> r.intervalCount == |Matching(content.value, IsTextLine)|
    ensures FileBalanced(r)
  {
    match content
    case None => FileStats(name, 0, 0, 0, 0, true)
    case Some(lines) =>
      var st := Run(lines);
      FileStats(name, st.intervals, st.words, st.phones, st.empty, false)
  }

  /** The totals `print_summary` derives from the per-file records. */
  datatype Summary = Summary(
    totalFiles: nat,
    totalIntervals: nat,
    totalWords: nat,
    totalPhones: nat,
    totalEmpty: nat,
    filesWithErrors: nat)

  const NoFiles := Summary(0, 0, 0, 0, 0, 0)

  function Add(a: Summary, b: Summary): Summary
  {
    Summary(a.totalFiles + b.totalFiles, a.totalIntervals + b.totalIntervals,
            a.totalWords + b.totalWords, a.totalPhones + b.totalPhones,
            a.totalEmpty + b.totalEmpty, a.filesWithErrors + b.filesWithErrors)
  }

  lemma AddAssociative(x: Summary, y: Summary, z: Summary)
    ensures Add(Add(x, y), z) == Add(x, Add(y, z))
  {
  }

  /** The contribution of one file. */
  function OfFile(f: FileStats): Summary
  {
    Summary(1, f.intervalCount, f.wordCount, f.phoneCount, f.emptyIntervals, if f.hasErrors then 1 else 0)
  }

  /** The aggregation of `print_summary`. */
  function Totals(all: seq<FileStats>): (s: Summary)
    ensures s.totalFiles == |all|
    decreases |all|
  {
    if all == [] then NoFiles
    else Add(Totals(all[..|all| - 1]), OfFile(all[|all| - 1]))
  }

  /** The error total counts exactly the flagged records. */
  lemma {:induction false} TotalsCountErrors(all: seq<FileStats>)
    ensures Totals(all).filesWithErrors == |Matching(all, HasErrors)| <= Totals(all).totalFiles
    decreases |all|
  {
    if all != [] {
      var init := all[..|all| - 1];
      var f := all[|all| - 1];
      assert all == init + [f];
      TotalsCountErrors(init);
      MatchingSnoc(init, f, HasErrors);
    }
  }

  /** When every file is balanced, so are the totals. */
  lemma {:induction false} TotalsBalanced(all: seq<FileStats>)
    requires forall k :: 0 <= k < |all| ==> FileBalanced(all[k])
    ensures Totals(all).totalEmpty + Totals(all).totalWords + Totals(all).totalPhones <= Totals(all).totalIntervals
    decreases |all|
  {
    if all != [] {
      var init := all[..|all| - 1];
      assert forall k :: 0 <= k < |init| ==> init[k] == all[k];
      TotalsBalanced(init);
      assert FileBalanced(all[|all| - 1]);
    }
  }

  /** The totals of two runs of files add up: each total is the sum of the
      corresponding per-file field. */
  lemma {:induction false} TotalsConcat(a: seq<FileStats>, b: seq<FileStats>)
    ensures Totals(a + b) == Add(Totals(a), Totals(b))
    decreases |b|
  {
    if b == [] {
      assert a + b == a;
    } else {
      var b' := b[..|b| - 1];
      var f := b[|b| - 1];
      var ab := a + b;
      assert ab[..|ab| - 1] == a + b' && ab[|ab| - 1] == f;
      assert b[..|b| - 1] == b';
      TotalsConcat(a, b');
      assert Totals(ab) == Add(Totals(a + b'), OfFile(f));
      assert Totals(b) == Add(Totals(b'), OfFile(f));
      AddAssociative(Totals(a), Totals(b'), OfFile(f));
    }
  }

  /** The totals of a single file are that file's fields. */
  lemma TotalsSingle(f: FileStats)
    ensures Totals([f]) == OfFile(f)
  {
    assert [f][..0] == [];
  }

  /** The file names of a list of records, in order. */
  function Filenames(all: seq<FileStats>): seq<string>
  {
    seq(|all|, k requires 0 <= k < |all| => all[k].filename)
  }

  /** `analyze_directory`: every `*.TextGrid` entry of the listing, read with
      `read`, in ascending name order; an empty list when there is none. */
  function AnalyzeDirectory(listing: seq<string>, read: string -> Option<seq<string>>): (r: seq<FileStats>)
    ensures |r| == |Matching(listing, SuffixTest(TextGridSuffix))|
    ensures Sorted(Filenames(r))
    ensures forall n ::
      multiset(Filenames(r))[n] == (if IsTextGridName(n) then multiset(listing)[n] else 0)
    ensures forall k :: 0 <= k < |r| ==> r[k] == ReadTextGrid(r[k].filename, read(r[k].filename))
  {
    var found := Glob(listing, TextGridSuffix);
    var names := Sort(found);
    assert |names| == |multiset(names)| == |multiset(found)| == |found|;
    ReadEach(names, read)
  }

  /** The loop of `analyze_directory`: one parse per name, in order. */
  function ReadEach(names: seq<string>, read: string -> Option<seq<string>>): (r: seq<FileStats>)
    ensures Filenames(r) == names
    ensures forall k :: 0 <= k < |r| ==> r[k] == ReadTextGrid(names[k], read(names[k]))
  {
    var r := seq(|names|, k requires 0 <= k < |names| => ReadTextGrid(names[k], read(names[k])));
    assert Filenames(r) == names;
    r
  }
}
